=== FILE: README.md ===
# API scheduler core, modelled in Dafny

The system is a small HTTP job scheduler. Users register **targets** (URL, method,
headers, body template) and **schedules** that fire against them. A schedule has a
type tag and a JSON configuration:

- `INTERVAL` schedules fire every `interval_seconds` (60 by default).
- `WINDOW` schedules fire every interval until an `end_time`, optionally capped at
  `max_runs`.

A background loop wakes periodically and selects every ACTIVE schedule whose
`next_run_at` has passed. For each one in turn it does three things:

1. It performs the HTTP request and logs a **Run**, through an observer that
   appends it to the run table.
2. It asks the schedule's strategy for the next fire time.
3. It either stores that time or marks the schedule COMPLETED.

The HTTP API creates targets and schedules, pauses, resumes and deletes them,
lists the run history and reports run counts.

This project models that core as pure functions over an immutable store:

| file | module | models |
|---|---|---|
| `wrappers.dfy` | `Wrappers` | `Option` and `Result` |
| `dates.dfy` | `Dates` | the three date conversions, passed in as functions |
| `models.dfy` | `Models` | the status enumerations, the three row types and their insertion defaults |
| `tables.dfy` | `Tables` | the store, its invariant and the per-schedule run count |
| `core_logic.dfy` | `CoreLogic` | the strategies and their registry, the executor's classification of an HTTP exchange, the observers |
| `scheduler.dfy` | `Scheduler` | one pass of the background loop (`Tick`) and repeated passes (`Ticks`) |
| `schemas.dfy` | `Schemas` | the schedule-configuration validator |
| `api.dfy` | `Api` | the control operations |
| `history.dfy` | `History` | the run listing and the metrics counts |

Inputs and outcomes:

- **Time.** Timestamps are integer seconds on one timeline. The clock is an input
  of every operation that reads it.
- **HTTP.** The result of each request is an input, `Exchange` (a response or an
  exception, plus a latency).
- **Resolver errors.** A strategy that raises on a malformed configuration returns
  `Err`. The loop swallows such an exception and abandons the rest of the pass, so
  `Tick` reports which schedule aborted the pass. That schedule's Run is already
  logged and the schedule itself is left as it was.

The transition functions `Fire`, `FireAll`, `Tick` and `Ticks` carry no
postconditions. Their behaviour is stated by the lemmas listed below.

Four facts about the code shape the model:

- Both strategies measure the next fire time from the clock reading of the current
  pass (backend/core_logic.py:71), not from the schedule's previous `next_run_at`.
- The Run is logged before the next fire time is computed and written
  (backend/main.py:47, then backend/main.py:50-61).
- The run limit is compared with the number of rows in the run table that reference
  the schedule (backend/core_logic.py:43).
- The validator reads only `start_time` and `end_time`; `interval_seconds` is never
  checked (backend/schemas.py:54-68).

## Model

| member | source | states |
|---|---|---|
| `Models.NewTarget` | backend/models.py:19-23 | an inserted target keeps its URL and body; an omitted method is GET and omitted headers are empty |
| `Models.NewSchedule` | backend/models.py:34-35 | a new schedule starts ACTIVE with `next_run_at` equal to its creation time, and keeps its target, type and configuration |
| `Tables.CountFor` | backend/core_logic.py:43 | the number of runs recorded for a schedule is at most the table size, and is zero exactly when no run references that schedule |
| `CoreLogic.IntervalSeconds` | backend/core_logic.py:24-25 | an absent `interval_seconds` means 60; a number is used as is; any other value makes the strategy raise |
| `CoreLogic.MaxRuns` | backend/core_logic.py:39-46 | the run limit is off exactly when `max_runs` is falsy (absent, null, 0, ""); a number is a limit; a non-empty string makes the comparison raise |
| `CoreLogic.EndTime` | backend/core_logic.py:31-36 | the window end exists exactly when `end_time` is a string the ISO reader accepts; a missing key is its own error |
| `CoreLogic.StrategyFor` | backend/core_logic.py:61-69 | only the tags INTERVAL and WINDOW have a strategy |
| `CoreLogic.IntervalNext` | backend/core_logic.py:18-25 | the interval strategy's time is the reference time plus the interval (plus 60 when absent), and, with the datetime range not modelled, it fails only on a non-numeric interval |
| `CoreLogic.WindowNext` | backend/core_logic.py:27-58 | the window strategy, evaluated in the source's order; it carries no postcondition of its own, and its behaviour is stated by `CoreLogic.WindowNextSpec`, `CoreLogic.WindowThrottle` and `CoreLogic.WindowEndIsInclusive` |
| `CoreLogic.GetNextRun` | backend/core_logic.py:66-72 | the registry dispatch on the clock reading of the pass; it carries no postcondition of its own, and its behaviour is stated by `CoreLogic.GetNextRunSpec` and `CoreLogic.ResolvableNeverRaises` |
| `CoreLogic.WindowNextSpec` | backend/core_logic.py:27-58 | the window strategy raises on an unreadable end, says "finished" exactly when the run limit is reached or reference time plus interval is after the end, and otherwise returns reference time plus interval, inside the window and below the limit |
| `CoreLogic.GetNextRunSpec` | backend/core_logic.py:66-72 | an unknown tag is finished at once, an INTERVAL schedule is never finished, a WINDOW schedule gets the window strategy's answer for the current clock |
| `CoreLogic.ResolvableNeverRaises` | backend/core_logic.py:18-58 | a configuration whose end, limit and interval are all readable never makes the resolver raise, whatever the clock or run count, outside the datetime-range overflow the model leaves out |
| `CoreLogic.IntervalAddsInterval` | backend/core_logic.py:18-25 | INTERVAL's next time is exactly now plus the interval, never "none", and independent of the run count |
| `CoreLogic.WindowIgnoresStart` | backend/core_logic.py:29-39 | setting or removing `start_time` never changes the window strategy's answer |
| `CoreLogic.WindowZeroMaxRunsIsUnlimited` | backend/core_logic.py:42 | `max_runs = 0` behaves exactly like an absent `max_runs` |
| `CoreLogic.WindowEndIsInclusive` | backend/core_logic.py:52-58 | a next time equal to the end is returned; one second past the end gives "finished" |
| `CoreLogic.WindowThrottle` | backend/core_logic.py:41-46 | with a numeric limit n, n or more recorded runs give "finished" whatever the window; below n the answer is the same as without a limit |
| `CoreLogic.WindowAtLimitIsFinished` | backend/core_logic.py:42-46 | a WINDOW schedule with a readable end that has reached its run limit is finished |
| `CoreLogic.WindowBelowLimitAdvances` | backend/core_logic.py:48-58 | below the limit and with now plus interval inside the window, the next time is now plus interval |
| `CoreLogic.WindowWithoutEndRaises` | backend/core_logic.py:32 | a WINDOW configuration without `end_time` makes the resolver raise |
| `CoreLogic.Classify` | backend/core_logic.py:95-125 | the Run references the executed schedule, carries the latency and insertion time, and is a SUCCESS exactly when a response with code below 400 came back |
| `CoreLogic.ClassifyBody` | backend/core_logic.py:108-125 | a response keeps its status code and a body that is its first 200 characters (a prefix of the text); an exception is a FAILURE with code 0 and the exception text as body |
| `CoreLogic.OnComplete` | backend/core_logic.py:83-85 | the database logger appends the run to the run table and leaves the earlier rows in place |
| `CoreLogic.NotifyAll` | backend/core_logic.py:127-128 | notifying n observers appends n copies of the run and leaves the earlier rows in place |
| `CoreLogic.Execute` | backend/core_logic.py:95-130 | every observer is called exactly once, in registration order, with the returned record, and the run table ends as the observers leave it |
| `CoreLogic.LoggerAppendsOnce` | backend/main.py:43-47 | with the one database logger the loop registers, an execution appends its Run exactly once |
| `Scheduler.Due` | backend/main.py:35-40 | the pass selects exactly the ACTIVE schedules with `next_run_at <= now`, each once, in id order |
| `Scheduler.Settle` | backend/main.py:52-61 | a next time replaces `next_run_at` and keeps the status; "none" sets COMPLETED and keeps `next_run_at`; type and configuration never change |
| `Scheduler.FireFrame` | backend/main.py:43-47 | firing one schedule appends exactly its Run, touches no other schedule, and can abort the pass only on itself |
| `Scheduler.FireResolves` | backend/main.py:47-61 | the strategy is asked with the run count that already includes the new Run; a raise leaves the schedule as it was; otherwise the twice-written update block acts as a single update |
| `Scheduler.FireAllFrame` | backend/main.py:40-64 | a pass changes only status and `next_run_at`, only of selected schedules, never targets or counters, and aborts only on a selected schedule |
| `Scheduler.FireAllRuns` | backend/main.py:40-47 | a pass that does not abort logs one Run per selected schedule, in selection order, each stamped with the tick's clock |
| `Scheduler.TickFrame` | backend/main.py:28-64 | a tick touches only due schedules, and only their status and `next_run_at` |
| `Scheduler.FireAllSelected` | backend/main.py:40-69 | a selected schedule is either processed once (one more Run, settled with its strategy's answer) or, when an earlier schedule raised, untouched; a pass without abort processes all of them without a raise |
| `Scheduler.TickEffect` | backend/main.py:28-69 | per schedule: not due means untouched with the same run count; due means exactly one new Run however stale `next_run_at` is, then settled with the answer for the current clock, unless the tick aborted first |
| `Scheduler.TickPreservesValid` | backend/main.py:28-64 | a tick keeps ids in range, every schedule's target present, and every run referencing an existing schedule or none |
| `Scheduler.FireAllKeepsReferences` | backend/main.py:40-47 | a pass logs Runs only for the schedules it selected, so every run still references an existing schedule or none |
| `Scheduler.TickCompletes` | backend/main.py:29-69 | when every configuration is resolvable no tick aborts (datetime-range overflow aside), and that stays so after the tick |
| `Scheduler.IntervalReanchorsOnClock` | backend/main.py:47-53 | on a tick that does not abort, a due INTERVAL schedule gains one Run and its next time becomes now plus the interval, whatever its previous `next_run_at`; it stays ACTIVE |
| `Scheduler.InactiveIsFrozen` | backend/main.py:35-38 | a PAUSED or COMPLETED schedule never fires and keeps every field through any number of ticks |
| `Scheduler.TickKeepsWindowCapped` | backend/core_logic.py:42-46 | for a WINDOW schedule with a readable `end_time`, a numeric limit n > 0, at most n Runs and ACTIVE only below n, every tick keeps all of that, because the tick that logs the n-th Run also completes it |
| `Scheduler.WindowNeverExceedsMaxRuns` | backend/main.py:44-55 | from the same starting conditions (readable `end_time`, limit n > 0, at most n Runs, ACTIVE only below n), no number of ticks gives it more than n Runs; without a readable `end_time` the limit is never reached (see `Scheduler.WindowWithoutEndNeverSettles`), and a resume lifts it (see `Api.ResumeBreaksWindowCap`) |
| `Scheduler.WindowTickStep` | backend/main.py:44-61 | in a store whose configurations are all resolvable, one tick of a due WINDOW schedule below its limit adds one Run, completes it at the limit, and otherwise moves it to now plus interval while that is inside the window |
| `Scheduler.WindowFiresExactlyMaxRuns` | backend/main.py:40-61 | a WINDOW schedule with `max_runs = n`, in a store whose configurations are all resolvable, that is ticked once per missing Run while each tick finds it due and the next time inside the window, ends with exactly n Runs and COMPLETED |
| `Scheduler.WindowWithoutEndStaysDue` | backend/main.py:47-69 | a due WINDOW schedule without `end_time` aborts the tick and is left exactly as it was, ACTIVE and still due |
| `Scheduler.WindowWithoutEndNeverSettles` | backend/core_logic.py:32 | through any number of ticks, a WINDOW schedule without `end_time` keeps its status and `next_run_at`, so an ACTIVE one is selected by every tick whose clock has reached that time |
| `Schemas.ParseDt` | backend/schemas.py:39-51 | a falsy value gives no date, "now" gives the clock, a string the lenient parser reads on the submission day gives exactly the parser's value, and a number or an unreadable string is refused as an invalid date |
| `Schemas.WindowBounds` | backend/schemas.py:54-66 | a window is accepted exactly when both dates are readable, `end_time` is given, and the end is strictly after the start (the parsed `start_time`, or the clock when none is given); an accepted window carries those two dates; the clock is read once per submission |
| `Schemas.ValidateWindowConfig` | backend/schemas.py:37-68 | a configuration without either date key is returned unchanged; an accepted one differs only in the two date keys, which hold the ISO form of the window bounds; a refusal always comes from the window check |
| `Schemas.MissingEndIsRejected` | backend/schemas.py:58-59 | a window configuration whose `end_time` is missing, null, 0 or empty is refused |
| `Schemas.EqualTimesAreRejected` | backend/schemas.py:61-62 | an end equal to the start is refused |
| `Schemas.StartDefaultsToNow` | backend/schemas.py:55 | without a start, the window is accepted exactly when its end is after the submission time, and the stored start is that time |
| `Schemas.IntervalIsNeverChecked` | backend/schemas.py:54-68 | changing `interval_seconds` never changes acceptance, and the value passes through untouched |
| `Schemas.ValidatedEndIsReadBack` | backend/schemas.py:64-66 | when the ISO reader inverts the ISO writer, the window strategy reads back the validated end, and it is after the validated start |
| `Schemas.ValidationIsIdempotent` | backend/schemas.py:54-68 | when the lenient parser reads the ISO writer's output on any day, revalidating an accepted configuration, on any later day, gives it back unchanged |
| `Api.CreateTarget` | backend/main.py:86-92 | a target is inserted under a fresh id with its defaults, and nothing else changes |
| `Api.DeleteTarget` | backend/main.py:105-118 | not found exactly when the target is missing; in use exactly when it exists and any schedule references it, whatever that schedule's status; otherwise only that target is removed |
| `Api.CreateSchedule` | backend/main.py:123-134 | an invalid configuration is refused first, then a missing target; otherwise a new ACTIVE schedule due at the submission time is inserted under a fresh id with the validated configuration and no Runs, and nothing else changes |
| `Api.Pause` | backend/main.py:147-156 | from any status, the schedule becomes PAUSED, nothing else changes, and an unknown id is refused as schedule not found (404) |
| `Api.Resume` | backend/main.py:158-167 | from any status, COMPLETED included, the schedule becomes ACTIVE, nothing else changes, and an unknown id is refused as schedule not found (404) |
| `Api.DeleteSchedule` | backend/main.py:169-177 | the schedule is removed; its runs stay in the history with a null schedule reference, and every other row is kept |
| `Api.ResumeUndoesPause` | backend/main.py:147-167 | pausing then resuming an ACTIVE schedule restores the store exactly |
| `Api.StatusChangesAreIdempotent` | backend/main.py:147-167 | pausing twice is pausing once, and resuming twice is resuming once |
| `Api.NewScheduleFiresOnFirstTick` | backend/models.py:34-35 | a new schedule is selected by the first tick at or after its creation, and that tick logs its first Run unless it aborts |
| `Api.NewWindowFiresExactlyMaxRuns` | backend/core_logic.py:41-46 | a WINDOW schedule created with `max_runs = n`, in a store whose configurations are all resolvable, then ticked n times while each tick finds it due and the next time inside the window, ends with exactly n Runs and COMPLETED |
| `Api.PausedScheduleNeverFires` | backend/main.py:153 | after a pause, no number of ticks fires the schedule or changes it |
| `Api.ResumedCompletedIsDueAgain` | backend/main.py:164 | resuming a COMPLETED schedule whose `next_run_at` has passed makes it due again |
| `Api.ResumeBreaksWindowCap` | backend/main.py:158-167 | resuming a WINDOW schedule that its limit n completed, once its `next_run_at` has passed, makes the next tick that does not abort log Run n + 1 |
| `Api.DeleteScheduleKeepsHistory` | backend/models.py:45 | after deleting a schedule no run references it, and every other schedule's run count is unchanged |
| `History.RunsOf` | backend/main.py:192-193 | the filtered listing holds exactly the runs of that schedule, as many as are recorded for it |
| `History.Matching` | backend/main.py:192-193 | a truthy schedule id restricts the listing to that schedule's runs; an absent or zero id lists every run |
| `History.ByTimeDesc` | backend/main.py:195 | the ordering is a permutation of the runs, newest first |
| `History.ListRuns` | backend/main.py:182-195 | the listing holds min(limit, matching) runs, newest first, all taken from the matching runs; an omitted limit is 100 |
| `History.ListRunsKeepsNewest` | backend/main.py:195 | no matching run left out by the limit is newer than a listed one |
| `History.LargeLimitListsAll` | backend/main.py:195 | a limit (given, or the default 100) at least the number of matching runs lists all of them |
| `History.SystemMetrics` | backend/main.py:207-220 | the total is the number of runs, and each status count is at most the total |
| `History.StatusCountsPartition` | backend/main.py:213-214 | every run is counted as a success or as a failure, never both |
| `History.MetricsAddUp` | backend/main.py:212-220 | the reported success and failure counts add up to the reported total |
| `History.MetricsAfterLogging` | backend/main.py:212-214 | logging one run raises the total by one, and raises exactly the count of its own status by one |

## Left out

- The HTTP request, its five-second timeout and the latency measurement are not modelled. Each request's result is an `Exchange` input.
- The daemon thread, the `while True` loop and the five-second sleep are not modelled. One pass is `Tick`, and repeated passes are `Ticks` over a list of clock readings and HTTP answers.
- Time zones are not modelled. This covers the IST zone, the naive/aware conversions, and the UTC clock of the selection query against the IST clock of the strategies. Every timestamp is one integer, and one tick uses one clock reading for selection, for the Run's `executed_at` and as the strategies' reference time.
- The lenient date parser, the ISO reader and the ISO writer are not modelled. They are the functions of a `Calendar` input, and only the round-trip facts a lemma needs are assumed, as preconditions. The lenient parser is given the submission-time clock reading, because it fills omitted fields from the current day; so a string such as "10:30" can be accepted on one day and refused on another.
- CoreLogic.IntervalNext: the datetime range is not modelled. In the source, adding the interval to the reference time raises OverflowError when the result falls outside years 1 to 9999 (backend/core_logic.py:25 and 52). Nothing bounds `interval_seconds`, so such a configuration is accepted, and then aborts every pass that reaches it. The model adds unbounded integers and never raises there.
- CoreLogic.ResolvableNeverRaises: for the same reason, "resolvable" does not exclude an interval whose sum overflows the datetime range, where the source raises.
- Scheduler.TickCompletes: for the same reason, a store whose configurations are all resolvable can still abort a pass in the source, on such an overflow.
- Schemas.WindowBounds: the validator's clock readings are merged into one, the submission time. In the source the default start (backend/schemas.py:55) and a "now" end (backend/schemas.py:43) are separate readings, the end's taken later. So `{"end_time": "now"}`, with or without `"start_time": "now"`, is accepted in the source unless both readings fall in the same microsecond, while the model always refuses it as EndNotAfterStart.
- History.ListRuns: the limit is an optional `nat` and defaults to 100. A negative limit is not modelled, because its meaning depends on the database.
- Configuration values other than null, integers and strings are left out: booleans, floats, lists and nested objects.
- The `avg_latency_ms` metric is floating-point averaging with rounding, and is not modelled.
- `print` logging is not modelled.
- The plain reads (`get_target`, `list_targets`, `get_schedule`, `list_schedules`, `get_run`) and the response schemas' field renaming are not modelled.
- Database sessions, commits, transactions and failures are not modelled. Neither is concurrency between the API and the loop.
- `History.ListRuns`: the order of runs with the same `executed_at` is not fixed by the source. The model keeps their insertion order, so its contract states only newest-first.
- `Scheduler.Due`: the selection query has no ORDER BY. The model processes due schedules in ascending id order, which matters only for which later schedules an aborted pass skips.
- Id allocation is not modelled faithfully. The model gives each new row its table's next counter value, and ids are never reused.
- `Scheduler.Tick`: the transition functions carry no contracts of their own. Each property is a separate lemma about them, as listed under "## Model".

=== FILE: api.dfy ===
/** The control operations of the HTTP API as transitions of the store: creating
    targets and schedules, pausing, resuming and deleting schedules, and
    deleting targets.  Each refusal the API reports is an `ApiError`. */
module Api {
  import opened Wrappers
  import opened Models
  import opened Dates
  import opened Tables
  import opened Schemas
  import CoreLogic
  import Scheduler

  /** The refusals: an unknown target (404), an unknown schedule (404), a target
      still referenced by a schedule (400), a configuration the validator
      refuses (422). */
  datatype ApiError =
    | TargetNotFound
    | ScheduleNotFound
    | TargetInUse
    | Invalid(reason: ValidationError)

  // ---------------------------------------------------------------------------
  // Targets
  // ---------------------------------------------------------------------------

  /** Inserts a target with the submission's defaults under a fresh id. */
  function CreateTarget(st: Store, url: string, httpMethod: Option<string>,
                        headers: Option<map<string, string>>, bodyTemplate: Option<string>): (r: (Store, int))
    ensures var (st', id) := r;
            && id in st'.targets && st'.targets[id] == NewTarget(url, httpMethod, headers, bodyTemplate)
            && st'.targets[id].httpMethod == httpMethod.GetOr(DefaultMethod)
            && st'.targets.Keys == st.targets.Keys + {id}
            && st'.schedules == st.schedules && st'.runs == st.runs
    ensures Valid(st) ==>
      && r.1 !in st.targets && Valid(r.0)
      && (forall k :: k in st.targets ==> r.0.targets[k] == st.targets[k])
  {
    var id := st.nextTargetId;
    (st.(targets := st.targets[id := NewTarget(url, httpMethod, headers, bodyTemplate)],
         nextTargetId := id + 1), id)
  }

  /** Whether some schedule, whatever its status, uses the target. */
  predicate Referenced(st: Store, targetId: int) {
    exists sid :: sid in st.schedules && st.schedules[sid].targetId == targetId
  }

  /** Deletes a target: refused when it does not exist, and refused when any
      schedule references it; otherwise only that target goes. */
  function DeleteTarget(st: Store, targetId: int): (r: Result<Store, ApiError>)
    ensures r == Err(TargetNotFound) <==> targetId !in st.targets
    ensures r == Err(TargetInUse) <==> targetId in st.targets && Referenced(st, targetId)
    ensures r.Ok? ==> && r.value.targets.Keys == st.targets.Keys - {targetId}
                      && (forall k :: k in r.value.targets ==> r.value.targets[k] == st.targets[k])
                      && r.value.schedules == st.schedules && r.value.runs == st.runs
    ensures Valid(st) && r.Ok? ==> Valid(r.value)
  {
    if targetId !in st.targets then Err(TargetNotFound)
    else if Referenced(st, targetId) then Err(TargetInUse)
    else Ok(st.(targets := st.targets - {targetId}))
  }

  // ---------------------------------------------------------------------------
  // Schedules
  // ---------------------------------------------------------------------------

  /** Creates a schedule submitted at clock reading `now`.  The configuration is
      validated first (as part of reading the request), then the target must
      exist; the row is inserted ACTIVE, due at `now`, under a fresh id.  The
      type tag is not checked. */
  function CreateSchedule(st: Store, targetId: int, kind: string, rawConfig: Config,
                          now: int, cal: Calendar): (r: Result<(Store, int), ApiError>)
    ensures ValidateWindowConfig(rawConfig, now, cal).Err? <==> r.Err? && r.error.Invalid?
    ensures r == Err(TargetNotFound) <==> ValidateWindowConfig(rawConfig, now, cal).Ok? && targetId !in st.targets
    ensures r.Ok? ==>
      var (st', id) := r.value;
      && id in st'.schedules
      && st'.schedules[id] == NewSchedule(targetId, kind, ValidateWindowConfig(rawConfig, now, cal).value, now)
      && st'.schedules.Keys == st.schedules.Keys + {id}
      && st'.targets == st.targets && st'.runs == st.runs
    ensures Valid(st) && r.Ok? ==>
      && r.value.1 !in st.schedules && Valid(r.value.0)
      && (forall k :: k in st.schedules ==> r.value.0.schedules[k] == st.schedules[k])
      && CountFor(r.value.0.runs, r.value.1) == 0
  {
    match ValidateWindowConfig(rawConfig, now, cal)
    case Err(e) => Err(Invalid(e))
    case Ok(cfg) =>
      if targetId !in st.targets then Err(TargetNotFound)
      else
        var id := st.nextScheduleId;
        Ok((st.(schedules := st.schedules[id := NewSchedule(targetId, kind, cfg, now)],
                nextScheduleId := id + 1), id))
  }

  /** Sets a schedule's status, whatever it was; nothing else changes. */
  function SetStatus(st: Store, id: int, status: ScheduleStatus): (r: Result<Store, ApiError>)
    ensures r.Err? <==> id !in st.schedules
    ensures r.Err? ==> r.error == ScheduleNotFound
    ensures r.Ok? ==> && r.value.schedules == st.schedules[id := st.schedules[id].(status := status)]
                      && r.value.targets == st.targets && r.value.runs == st.runs
                      && r.value.nextScheduleId == st.nextScheduleId && r.value.nextTargetId == st.nextTargetId
  {
    if id !in st.schedules then Err(ScheduleNotFound)
    else Ok(st.(schedules := st.schedules[id := st.schedules[id].(status := status)]))
  }

  /** Pauses a schedule, from any status. */
  function Pause(st: Store, id: int): (r: Result<Store, ApiError>)
    ensures r.Err? <==> id !in st.schedules
    ensures r.Err? ==> r.error == ScheduleNotFound
    ensures r.Ok? ==> && id in r.value.schedules && r.value.schedules[id].status == Paused
                      && Scheduler.SameRow(r.value.schedules[id], st.schedules[id])
                      && r.value.schedules[id].nextRunAt == st.schedules[id].nextRunAt
    ensures r.Ok? ==> && r.value.schedules.Keys == st.schedules.Keys
                      && (forall k :: k in st.schedules && k != id ==> r.value.schedules[k] == st.schedules[k])
                      && r.value.targets == st.targets && r.value.runs == st.runs
    ensures Valid(st) && r.Ok? ==> Valid(r.value)
  {
    SetStatus(st, id, Paused)
  }

  /** Resumes a schedule, from any status -- a COMPLETED one included. */
  function Resume(st: Store, id: int): (r: Result<Store, ApiError>)
    ensures r.Err? <==> id !in st.schedules
    ensures r.Err? ==> r.error == ScheduleNotFound
    ensures r.Ok? ==> && id in r.value.schedules && r.value.schedules[id].status == Active
                      && Scheduler.SameRow(r.value.schedules[id], st.schedules[id])
                      && r.value.schedules[id].nextRunAt == st.schedules[id].nextRunAt
    ensures r.Ok? ==> && r.value.schedules.Keys == st.schedules.Keys
                      && (forall k :: k in st.schedules && k != id ==> r.value.schedules[k] == st.schedules[k])
                      && r.value.targets == st.targets && r.value.runs == st.runs
    ensures Valid(st) && r.Ok? ==> Valid(r.value)
  {
    SetStatus(st, id, Active)
  }

  /** A run detached from schedule `id`: its schedule reference becomes null. */
  function Detach(run: Run, id: int): (r: Run)
    ensures r.scheduleId == (if run.scheduleId == Some(id) then None else run.scheduleId)
    ensures r.(scheduleId := run.scheduleId) == run
  {
    if run.scheduleId == Some(id) then run.(scheduleId := None) else run
  }

  /** Every run of `runs` detached from `id`. */
  function DetachAll(runs: seq<Run>, id: int): (r: seq<Run>)
    ensures |r| == |runs|
    ensures forall i :: 0 <= i < |runs| ==> r[i] == Detach(runs[i], id)
  {
    seq(|runs|, i requires 0 <= i < |runs| => Detach(runs[i], id))
  }

  /** Deletes a schedule.  Its runs stay in the history, with their schedule
      reference set to null. */
  function DeleteSchedule(st: Store, id: int): (r: Result<Store, ApiError>)
    ensures r.Err? <==> id !in st.schedules
    ensures r.Err? ==> r.error == ScheduleNotFound
    ensures r.Ok? ==> && r.value.schedules.Keys == st.schedules.Keys - {id}
                      && (forall k :: k in r.value.schedules ==> r.value.schedules[k] == st.schedules[k])
                      && r.value.targets == st.targets
                      && |r.value.runs| == |st.runs|
                      && (forall i :: 0 <= i < |st.runs| ==> r.value.runs[i] == Detach(st.runs[i], id))
    ensures Valid(st) && r.Ok? ==> Valid(r.value)
  {
    if id !in st.schedules then Err(ScheduleNotFound)
    else
      Ok(st.(schedules := st.schedules - {id}, runs := DetachAll(st.runs, id)))
  }

  // ---------------------------------------------------------------------------
  // Properties relating the operations to each other and to the scheduler
  // ---------------------------------------------------------------------------

  /** Pausing then resuming an ACTIVE schedule gives back the store it started from. */
  lemma ResumeUndoesPause(st: Store, id: int)
    requires id in st.schedules && st.schedules[id].status == Active
    ensures Pause(st, id).Ok?
    ensures Resume(Pause(st, id).value, id) == Ok(st)
  {
    var p := Pause(st, id).value;
    assert Resume(p, id).value.schedules == st.schedules;
  }

  /** Pausing is idempotent, and so is resuming. */
  lemma StatusChangesAreIdempotent(st: Store, id: int)
    requires id in st.schedules
    ensures Pause(Pause(st, id).value, id) == Pause(st, id)
    ensures Resume(Resume(st, id).value, id) == Resume(st, id)
  {
    var p := Pause(st, id).value;
    assert Pause(p, id).value.schedules == p.schedules;
    var q := Resume(st, id).value;
    assert Resume(q, id).value.schedules == q.schedules;
  }

  /** A newly created schedule is selected by the first tick at or after its
      creation, and that tick logs one Run for it unless it aborts. */
  lemma NewScheduleFiresOnFirstTick(st: Store, targetId: int, kind: string, rawConfig: Config,
                                    now: int, cal: Calendar, later: int, http: int -> CoreLogic.Exchange)
    requires Valid(st)
    requires CreateSchedule(st, targetId, kind, rawConfig, now, cal).Ok?
    requires now <= later
    ensures var (st', id) := CreateSchedule(st, targetId, kind, rawConfig, now, cal).value;
            && Scheduler.IsDue(st'.schedules[id], later)
            && id in Scheduler.Due(st', later)
    ensures var (st', id) := CreateSchedule(st, targetId, kind, rawConfig, now, cal).value;
            var r := Scheduler.Tick(st', later, http, cal);
            r.crashed.None? ==> CountFor(r.store.runs, id) == 1
  {
    var (st', id) := CreateSchedule(st, targetId, kind, rawConfig, now, cal).value;
    Scheduler.TickEffect(st', later, http, cal, id);
  }

  /** The headline promise of a run limit, from creation: a WINDOW schedule
      created with `max_runs = n`, in a store where no configuration makes a
      strategy raise, and then ticked `n` times -- the first at or after its
      creation, each later one at or after the time the previous one set, while
      that time is inside the window -- ends with exactly `n` Runs and
      COMPLETED. */
  lemma {:induction false} NewWindowFiresExactlyMaxRuns(st: Store, targetId: int, rawConfig: Config, now: int,
                                                        cal: Calendar, steps: seq<Scheduler.Step>,
                                                        n: int, iv: int, end: int)
    requires Valid(st) && Scheduler.AllResolvable(st, cal)
    requires CreateSchedule(st, targetId, "WINDOW", rawConfig, now, cal).Ok?
    requires var cfg := ValidateWindowConfig(rawConfig, now, cal).value;
             && Lookup(cfg, "max_runs") == Some(VInt(n))
             && CoreLogic.IntervalSeconds(cfg) == Ok(iv)
             && CoreLogic.EndTime(cfg, cal) == Ok(end)
    requires |steps| == n > 0 && now <= steps[0].now
    requires forall k :: 0 <= k < |steps| - 1 ==>
      steps[k].now + iv <= end && steps[k].now + iv <= steps[k + 1].now
    ensures var (st', id) := CreateSchedule(st, targetId, "WINDOW", rawConfig, now, cal).value;
            && id in Scheduler.Ticks(st', steps, cal).schedules
            && CountFor(Scheduler.Ticks(st', steps, cal).runs, id) == n
            && Scheduler.Ticks(st', steps, cal).schedules[id].status == Completed
  {
    var (st', id) := CreateSchedule(st, targetId, "WINDOW", rawConfig, now, cal).value;
    assert Scheduler.AllResolvable(st', cal) by {
      forall k | k in st'.schedules
        ensures CoreLogic.Resolvable(st'.schedules[k].kind, st'.schedules[k].config, cal)
      {
        if k != id {
          assert st'.schedules[k] == st.schedules[k];
        }
      }
    }
    assert Scheduler.WindowPending(st', id, steps[0].now, cal, n, iv, end);
    Scheduler.WindowFiresExactlyMaxRuns(st', steps, cal, id, n, iv, end);
  }

  /** A paused schedule never fires again until it is resumed: it keeps every
      field and gains no Run, however many ticks pass. */
  lemma PausedScheduleNeverFires(st: Store, id: int, steps: seq<Scheduler.Step>, cal: Calendar)
    requires Valid(st) && id in st.schedules
    ensures var p := Pause(st, id).value;
            && id in Scheduler.Ticks(p, steps, cal).schedules
            && Scheduler.Ticks(p, steps, cal).schedules[id] == p.schedules[id]
            && CountFor(Scheduler.Ticks(p, steps, cal).runs, id) == CountFor(st.runs, id)
  {
    Scheduler.InactiveIsFrozen(Pause(st, id).value, steps, cal, id);
  }

  /** Resuming a COMPLETED schedule makes it due again at once when its stored
      `next_run_at` has passed, so the next tick fires it once more. */
  lemma ResumedCompletedIsDueAgain(st: Store, id: int, now: int)
    requires id in st.schedules && st.schedules[id].status == Completed
    requires st.schedules[id].nextRunAt <= now
    ensures !Scheduler.IsDue(st.schedules[id], now)
    ensures Scheduler.IsDue(Resume(st, id).value.schedules[id], now)
  {
  }

  /** The run limit only stops a WINDOW schedule by completing it, so resuming a
      schedule the limit completed lifts the cap: the next tick that does not
      abort logs a Run beyond `max_runs`. */
  lemma ResumeBreaksWindowCap(st: Store, id: int, now: int, http: int -> CoreLogic.Exchange,
                              cal: Calendar, n: int)
    requires Valid(st) && Scheduler.WindowCapped(st, id, n, cal)
    requires st.schedules[id].status == Completed && CountFor(st.runs, id) == n
    requires st.schedules[id].nextRunAt <= now
    ensures var r := Scheduler.Tick(Resume(st, id).value, now, http, cal);
            r.crashed.None? ==> CountFor(r.store.runs, id) == n + 1
  {
    var p := Resume(st, id).value;
    assert Scheduler.IsDue(p.schedules[id], now);
    Scheduler.TickEffect(p, now, http, cal, id);
  }

  /** Deleting a schedule keeps the run history's length and every run's
      outcome; only the references to that schedule are cleared, so its run
      count drops to zero and every other schedule's count is kept. */
  lemma {:induction false} DeleteScheduleKeepsHistory(st: Store, id: int, other: int)
    requires id in st.schedules && other != id
    ensures CountFor(DeleteSchedule(st, id).value.runs, id) == 0
    ensures CountFor(DeleteSchedule(st, id).value.runs, other) == CountFor(st.runs, other)
  {
    DetachCounts(st.runs, id, other);
  }

  /** Detaching clears every reference to `id` and keeps every other schedule's count. */
  lemma {:induction false} DetachCounts(runs: seq<Run>, id: int, other: int)
    requires other != id
    ensures CountFor(DetachAll(runs, id), id) == 0
    ensures CountFor(DetachAll(runs, id), other) == CountFor(runs, other)
    decreases |runs|
  {
    if runs != [] {
      var init := runs[..|runs| - 1];
      DetachCounts(init, id, other);
      assert DetachAll(runs, id)[..|runs| - 1] == DetachAll(init, id);
    }
  }
}

=== FILE: core_logic.dfy ===
/** The scheduling strategies, the strategy registry, the executor's classification
    of an HTTP exchange into a Run record, and the observers it notifies. */
module CoreLogic {
  import opened Wrappers
  import opened Models
  import opened Dates

  /** Interval used when a configuration has no `interval_seconds`. */
  const DefaultInterval: int := 60

  /** Longest response body kept on a successful exchange. */
  const BodyLimit: nat := 200

  /** The exceptions a strategy can raise on a malformed configuration:
      a missing `end_time` key, an `end_time` the ISO reader rejects or that is
      not a string, a truthy `max_runs` that is not a number, or an
      `interval_seconds` that is not a number. */
  datatype ResolveError =
    | NoEndTime
    | BadEndTime(v: Value)
    | BadMaxRuns(v: Value)
    | BadInterval(v: Value)

  // ---------------------------------------------------------------------------
  // Reading the configuration
  // ---------------------------------------------------------------------------

  /** The interval in seconds: 60 when the key is absent, an error when the
      value is not a number. */
  function IntervalSeconds(cfg: Config): (r: Result<int, ResolveError>)
    ensures "interval_seconds" !in cfg ==> r == Ok(DefaultInterval)
    ensures r.Ok? <==> ("interval_seconds" !in cfg || cfg["interval_seconds"].VInt?)
    ensures "interval_seconds" in cfg && r.Ok? ==> cfg["interval_seconds"] == VInt(r.value)
  {
    match Lookup(cfg, "interval_seconds")
    case None => Ok(DefaultInterval)
    case Some(VInt(n)) => Ok(n)
    case Some(v) => Err(BadInterval(v))
  }

  /** The run limit: none when `max_runs` is falsy (absent, null, 0 or ""),
      otherwise the number, or an error when it is a non-empty string. */
  function MaxRuns(cfg: Config): (r: Result<Option<int>, ResolveError>)
    ensures r == Ok(None) <==> !Truthy(Lookup(cfg, "max_runs"))
    ensures r.Ok? && r.value.Some? ==> cfg["max_runs"] == VInt(r.value.value) && r.value.value != 0
    ensures r.Err? ==> "max_runs" in cfg && cfg["max_runs"].VStr?
  {
    match Lookup(cfg, "max_runs")
    case None => Ok(None)
    case Some(VNull) => Ok(None)
    case Some(VInt(n)) => if n == 0 then Ok(None) else Ok(Some(n))
    case Some(VStr(text)) => if text == "" then Ok(None) else Err(BadMaxRuns(VStr(text)))
  }

  /** The window end, read with the strict ISO reader. */
  function EndTime(cfg: Config, cal: Calendar): (r: Result<int, ResolveError>)
    ensures r.Ok? <==> ("end_time" in cfg && cfg["end_time"].VStr? && cal.fromIso(cfg["end_time"].s).Some?)
    ensures r.Ok? ==> cal.fromIso(cfg["end_time"].s) == Some(r.value)
    ensures "end_time" !in cfg ==> r == Err(NoEndTime)
  {
    match Lookup(cfg, "end_time")
    case None => Err(NoEndTime)
    case Some(VStr(text)) =>
      (match cal.fromIso(text)
       case Some(t) => Ok(t)
       case None => Err(BadEndTime(VStr(text))))
    case Some(v) => Err(BadEndTime(v))
  }

  // ---------------------------------------------------------------------------
  // Strategies
  // ---------------------------------------------------------------------------

  /** The strategies registered under a type tag. */
  datatype Strategy = IntervalStrategy | WindowStrategy

  /** The registry lookup: only the two tags "INTERVAL" and "WINDOW" are known. */
  function StrategyFor(kind: string): (r: Option<Strategy>)
    ensures r == Some(IntervalStrategy) <==> kind == "INTERVAL"
    ensures r == Some(WindowStrategy) <==> kind == "WINDOW"
  {
    if kind == "INTERVAL" then Some(IntervalStrategy)
    else if kind == "WINDOW" then Some(WindowStrategy)
    else None
  }

  /** Interval strategy: the reference time plus the interval; never "none". */
  function IntervalNext(cfg: Config, last: int): (r: Result<int, ResolveError>)
    ensures r.Ok? <==> IntervalSeconds(cfg).Ok?
    ensures "interval_seconds" !in cfg ==> r == Ok(last + DefaultInterval)
    ensures "interval_seconds" in cfg && r.Ok? ==> cfg["interval_seconds"] == VInt(r.value - last)
  {
    match IntervalSeconds(cfg)
    case Ok(iv) => Ok(last + iv)
    case Err(e) => Err(e)
  }

  /** Window strategy.  In the order the source evaluates them: the window end is
      read, then a truthy `max_runs` is compared with the number of runs already
      recorded, then the interval is added to the reference time and the result
      is dropped when it lies strictly after the window end.  `Ok(None)` means
      the schedule is finished. */
  function WindowNext(cfg: Config, last: int, runCount: int, cal: Calendar)
    : (r: Result<Option<int>, ResolveError>)
  {
    match EndTime(cfg, cal)
    case Err(e) => Err(e)
    case Ok(end) =>
      match MaxRuns(cfg)
      case Err(e) => Err(e)
      case Ok(limit) =>
        if limit.Some? && runCount >= limit.value then Ok(None)
        else
          match IntervalSeconds(cfg)
          case Err(e) => Err(e)
          case Ok(iv) =>
            if last + iv > end then Ok(None) else Ok(Some(last + iv))
  }

  /** The next fire time of a schedule of type `kind`, measured from the clock
      reading `now`, given the number of runs already recorded for it.
      `Ok(None)` means the schedule is finished; an unknown tag always is. */
  function GetNextRun(kind: string, cfg: Config, now: int, runCount: int, cal: Calendar)
    : (r: Result<Option<int>, ResolveError>)
  {
    match StrategyFor(kind)
    case None => Ok(None)
    case Some(IntervalStrategy) =>
      (match IntervalNext(cfg, now)
       case Ok(t) => Ok(Some(t))
       case Err(e) => Err(e))
    case Some(WindowStrategy) => WindowNext(cfg, now, runCount, cal)
  }

  /** A schedule whose configuration no strategy call can raise on. */
  predicate Resolvable(kind: string, cfg: Config, cal: Calendar) {
    match StrategyFor(kind)
    case None => true
    case Some(IntervalStrategy) => IntervalSeconds(cfg).Ok?
    case Some(WindowStrategy) =>
      EndTime(cfg, cal).Ok? && MaxRuns(cfg).Ok? && IntervalSeconds(cfg).Ok?
  }

  // ---------------------------------------------------------------------------
  // Properties of the strategies
  // ---------------------------------------------------------------------------

  /** The window strategy's answer in terms of the three configuration readers:
      it raises when the end cannot be read; it says "finished" exactly when the
      run limit is reached or the next time would fall after the end; otherwise
      it gives the reference time plus the interval, inside the window and below
      the limit. */
  lemma WindowNextSpec(cfg: Config, last: int, runCount: int, cal: Calendar)
    ensures EndTime(cfg, cal).Err? ==> WindowNext(cfg, last, runCount, cal).Err?
    ensures WindowNext(cfg, last, runCount, cal) == Ok(None) <==>
      && EndTime(cfg, cal).Ok? && MaxRuns(cfg).Ok?
      && ((MaxRuns(cfg).value.Some? && runCount >= MaxRuns(cfg).value.value)
          || (IntervalSeconds(cfg).Ok? && last + IntervalSeconds(cfg).value > EndTime(cfg, cal).value))
    ensures var r := WindowNext(cfg, last, runCount, cal);
      r.Ok? && r.value.Some? ==>
        && IntervalSeconds(cfg).Ok? && EndTime(cfg, cal).Ok? && MaxRuns(cfg).Ok?
        && r.value.value == last + IntervalSeconds(cfg).value
        && r.value.value <= EndTime(cfg, cal).value
        && (MaxRuns(cfg).value.None? || runCount < MaxRuns(cfg).value.value)
  {
  }

  /** The registry dispatch: an unknown tag is finished at once, an INTERVAL
      schedule never is, and a WINDOW schedule gets the window strategy's answer. */
  lemma GetNextRunSpec(kind: string, cfg: Config, now: int, runCount: int, cal: Calendar)
    ensures StrategyFor(kind).None? ==> GetNextRun(kind, cfg, now, runCount, cal) == Ok(None)
    ensures kind == "INTERVAL" ==> GetNextRun(kind, cfg, now, runCount, cal) != Ok(None)
    ensures kind == "INTERVAL" && GetNextRun(kind, cfg, now, runCount, cal).Ok? ==>
      IntervalNext(cfg, now) == Ok(GetNextRun(kind, cfg, now, runCount, cal).value.value)
    ensures kind == "WINDOW" ==> GetNextRun(kind, cfg, now, runCount, cal) == WindowNext(cfg, now, runCount, cal)
  {
  }

  /** A resolvable configuration never makes the resolver raise, whatever the
      clock and the run count. */
  lemma ResolvableNeverRaises(kind: string, cfg: Config, now: int, runCount: int, cal: Calendar)
    requires Resolvable(kind, cfg, cal)
    ensures GetNextRun(kind, cfg, now, runCount, cal).Ok?
  {
  }

  /** An interval schedule is never finished, its next time is exactly the
      reference time plus the interval, and the run count plays no part. */
  lemma IntervalAddsInterval(cfg: Config, now: int, c1: int, c2: int, cal: Calendar, iv: int)
    requires "interval_seconds" !in cfg ==> iv == DefaultInterval
    requires "interval_seconds" in cfg ==> cfg["interval_seconds"] == VInt(iv)
    ensures GetNextRun("INTERVAL", cfg, now, c1, cal) == Ok(Some(now + iv))
    ensures GetNextRun("INTERVAL", cfg, now, c1, cal) == GetNextRun("INTERVAL", cfg, now, c2, cal)
  {
  }

  /** The window strategy never reads `start_time`. */
  lemma WindowIgnoresStart(cfg: Config, start: Value, last: int, runCount: int, cal: Calendar)
    ensures WindowNext(cfg["start_time" := start], last, runCount, cal)
         == WindowNext(cfg, last, runCount, cal)
    ensures WindowNext(cfg - {"start_time"}, last, runCount, cal)
         == WindowNext(cfg, last, runCount, cal)
  {
    var with := cfg["start_time" := start];
    var without := cfg - {"start_time"};
    assert Lookup(with, "end_time") == Lookup(cfg, "end_time");
    assert Lookup(with, "max_runs") == Lookup(cfg, "max_runs");
    assert Lookup(with, "interval_seconds") == Lookup(cfg, "interval_seconds");
    assert Lookup(without, "end_time") == Lookup(cfg, "end_time");
    assert Lookup(without, "max_runs") == Lookup(cfg, "max_runs");
    assert Lookup(without, "interval_seconds") == Lookup(cfg, "interval_seconds");
  }

  /** A `max_runs` of 0 disables the throttle exactly as an absent one does. */
  lemma WindowZeroMaxRunsIsUnlimited(cfg: Config, last: int, runCount: int, cal: Calendar)
    ensures WindowNext(cfg["max_runs" := VInt(0)], last, runCount, cal)
         == WindowNext(cfg - {"max_runs"}, last, runCount, cal)
  {
    var zero := cfg["max_runs" := VInt(0)];
    var absent := cfg - {"max_runs"};
    assert Lookup(zero, "end_time") == Lookup(absent, "end_time");
    assert Lookup(zero, "interval_seconds") == Lookup(absent, "interval_seconds");
  }

  /** The window is closed at its end: a next time landing exactly on the end
      is still returned, one second later is not. */
  lemma WindowEndIsInclusive(cfg: Config, last: int, runCount: int, cal: Calendar, end: int, iv: int)
    requires EndTime(cfg, cal) == Ok(end)
    requires IntervalSeconds(cfg) == Ok(iv)
    requires MaxRuns(cfg) == Ok(None)
    ensures last + iv == end ==> WindowNext(cfg, last, runCount, cal) == Ok(Some(end))
    ensures last + iv == end + 1 ==> WindowNext(cfg, last, runCount, cal) == Ok(None)
  {
  }

  /** Throttling: with a non-zero numeric `max_runs` of `n`, the window strategy
      says "finished" as soon as `n` runs are recorded, whatever the clock and
      the window; below `n`, it is governed by the window alone. */
  lemma WindowThrottle(cfg: Config, last: int, runCount: int, cal: Calendar, n: int)
    requires EndTime(cfg, cal).Ok?
    requires Lookup(cfg, "max_runs") == Some(VInt(n)) && n != 0
    ensures runCount >= n ==> WindowNext(cfg, last, runCount, cal) == Ok(None)
    ensures runCount < n ==>
      WindowNext(cfg, last, runCount, cal) == WindowNext(cfg - {"max_runs"}, last, runCount, cal)
  {
    var absent := cfg - {"max_runs"};
    assert Lookup(absent, "end_time") == Lookup(cfg, "end_time");
    assert Lookup(absent, "interval_seconds") == Lookup(cfg, "interval_seconds");
  }

  /** The resolver's answer for a WINDOW schedule that has reached its run limit. */
  lemma WindowAtLimitIsFinished(cfg: Config, now: int, runCount: int, cal: Calendar, n: int)
    requires EndTime(cfg, cal).Ok?
    requires Lookup(cfg, "max_runs") == Some(VInt(n)) && n != 0
    requires runCount >= n
    ensures GetNextRun("WINDOW", cfg, now, runCount, cal) == Ok(None)
  {
    WindowThrottle(cfg, now, runCount, cal, n);
  }

  /** The resolver's answer for a WINDOW schedule below its run limit whose next
      time still lies inside the window. */
  lemma WindowBelowLimitAdvances(cfg: Config, now: int, runCount: int, cal: Calendar, n: int, iv: int, end: int)
    requires EndTime(cfg, cal) == Ok(end) && IntervalSeconds(cfg) == Ok(iv)
    requires Lookup(cfg, "max_runs") == Some(VInt(n)) && n != 0
    requires runCount < n && now + iv <= end
    ensures GetNextRun("WINDOW", cfg, now, runCount, cal) == Ok(Some(now + iv))
  {
  }

  /** A WINDOW configuration without an `end_time` key makes the resolver raise. */
  lemma WindowWithoutEndRaises(cfg: Config, now: int, runCount: int, cal: Calendar)
    requires "end_time" !in cfg
    ensures GetNextRun("WINDOW", cfg, now, runCount, cal) == Err(NoEndTime)
  {
  }

  // ---------------------------------------------------------------------------
  // Execution and observers
  // ---------------------------------------------------------------------------

  /** What the HTTP call produced: a response, or an exception with its text. */
  datatype HttpOutcome = Response(code: int, text: string) | Raised(message: string)

  /** One HTTP exchange: its outcome and the measured latency in milliseconds. */
  datatype Exchange = Exchange(outcome: HttpOutcome, latencyMs: nat)

  /** The Run record the executor builds for schedule `scheduleId` from an
      exchange, stamped with the insertion time `executedAt`. */
  function Classify(scheduleId: int, x: Exchange, executedAt: int): (run: Run)
    ensures run.scheduleId == Some(scheduleId)
    ensures run.executedAt == executedAt && run.latencyMs == x.latencyMs
    ensures run.status == Success <==> (x.outcome.Response? && x.outcome.code < 400)
  {
    match x.outcome
    case Response(code, text) =>
      var status := if code < 400 then Success else Failure;
      var body := if |text| <= BodyLimit then text else text[..BodyLimit];
      Run(Some(scheduleId), executedAt, status, code, x.latencyMs, body)
    case Raised(message) =>
      Run(Some(scheduleId), executedAt, Failure, 0, x.latencyMs, message)
  }

  /** The captured body of a response is its first 200 characters; an exception
      is recorded as a FAILURE with status code 0 and the exception text as body. */
  lemma ClassifyBody(scheduleId: int, x: Exchange, executedAt: int)
    ensures var run := Classify(scheduleId, x, executedAt);
      x.outcome.Response? ==>
        && run.statusCode == x.outcome.code
        && |run.responseBody| == (if |x.outcome.text| < BodyLimit then |x.outcome.text| else BodyLimit)
        && run.responseBody <= x.outcome.text
    ensures var run := Classify(scheduleId, x, executedAt);
      x.outcome.Raised? ==>
        run.status == Failure && run.statusCode == 0 && run.responseBody == x.outcome.message
  {
  }

  /** The observers an executor can notify.  The database logger is the one
      implementation: it appends the run to the run table. */
  datatype Observer = DatabaseLogger

  /** The observer list the scheduler registers on each executor. */
  const Loggers: seq<Observer> := [DatabaseLogger]

  /** One observer's reaction to a completed run, on the run table. */
  function OnComplete(o: Observer, run: Run, runs: seq<Run>): (r: seq<Run>)
    ensures |r| == |runs| + 1 && r[..|runs|] == runs && r[|runs|] == run
  {
    match o
    case DatabaseLogger => runs + [run]
  }

  /** The run table after every observer of `obs`, in order, has seen `run`. */
  function NotifyAll(obs: seq<Observer>, run: Run, runs: seq<Run>): (r: seq<Run>)
    ensures |r| == |runs| + |obs|
    ensures r[..|runs|] == runs
    ensures forall i :: |runs| <= i < |r| ==> r[i] == run
    decreases |obs|
  {
    if obs == [] then runs
    else NotifyAll(obs[1..], run, OnComplete(obs[0], run, runs))
  }

  /** The executor: builds the run record, then calls every observer once, in
      registration order, with that record, and returns it.  `delivered` lists
      the calls made; `runs'` is the run table afterwards. */
  method Execute(observers: seq<Observer>, scheduleId: int, x: Exchange, now: int, runs: seq<Run>)
    returns (run: Run, delivered: seq<(Observer, Run)>, runs': seq<Run>)
    ensures run == Classify(scheduleId, x, now)
    ensures |delivered| == |observers|
    ensures forall i :: 0 <= i < |observers| ==> delivered[i] == (observers[i], run)
    ensures runs' == NotifyAll(observers, run, runs)
  {
    run := Classify(scheduleId, x, now);
    delivered := [];
    runs' := runs;
    var k := 0;
    while k < |observers|
      invariant 0 <= k <= |observers|
      invariant |delivered| == k
      invariant forall i :: 0 <= i < k ==> delivered[i] == (observers[i], run)
      invariant NotifyAll(observers[k..], run, runs') == NotifyAll(observers, run, runs)
    {
      assert observers[k..][1..] == observers[k + 1..];
      runs' := OnComplete(observers[k], run, runs');
      delivered := delivered + [(observers[k], run)];
      k := k + 1;
    }
  }

  /** With the scheduler's single database logger, a completed run is appended
      to the run table exactly once. */
  lemma LoggerAppendsOnce(run: Run, runs: seq<Run>)
    ensures NotifyAll(Loggers, run, runs) == runs + [run]
  {
    var r := NotifyAll(Loggers, run, runs);
    assert r[..|runs|] == runs;
    assert r == r[..|runs|] + [r[|runs|]];
  }
}

=== FILE: dates.dfy ===
/** Date handling the scheduler delegates to libraries.  Timestamps are integer
    seconds on one timeline; the time-zone conversions around them are not modelled. */
module Dates {
  import opened Wrappers

  /** The three text/time conversions the core performs:
      `parse` is the lenient free-form parser used when a schedule is submitted;
      it is given the clock reading too, because it fills the fields a string
      leaves out (the date of "10:30", say) from the current day;
      `fromIso` the strict ISO-8601 reader the window strategy uses, and
      `toIso` the ISO-8601 writer that normalises submitted dates. */
  datatype Calendar = Calendar(
    parse: (string, int) -> Option<int>,
    fromIso: string -> Option<int>,
    toIso: int -> string)

  /** The ISO reader reads back everything the ISO writer writes. */
  ghost predicate IsoRoundTrip(cal: Calendar) {
    forall t :: cal.fromIso(cal.toIso(t)) == Some(t)
  }
}

=== FILE: history.dfy ===
/** The read side of the run table: the filtered, newest-first, limited run
    listing, and the aggregate counts of the metrics endpoint. */
module History {
  import opened Wrappers
  import opened Models
  import opened Tables

  // ---------------------------------------------------------------------------
  // Filtering
  // ---------------------------------------------------------------------------

  /** The runs of schedule `id`, in insertion order. */
  function RunsOf(runs: seq<Run>, id: int): (r: seq<Run>)
    ensures |r| == CountFor(runs, id)
    ensures forall i :: 0 <= i < |r| ==> r[i].scheduleId == Some(id)
    ensures multiset(r) <= multiset(runs)
    ensures forall x :: x in runs && x.scheduleId == Some(id) ==> x in r
  {
    if runs == [] then []
    else
      var init := runs[..|runs| - 1];
      var last := runs[|runs| - 1];
      assert runs == init + [last];
      if last.scheduleId == Some(id) then RunsOf(init, id) + [last] else RunsOf(init, id)
  }

  /** The listing's filter: a truthy schedule id (not absent, not 0) restricts
      the listing to that schedule's runs; otherwise every run is listed. */
  function Matching(runs: seq<Run>, scheduleId: Option<int>): (r: seq<Run>)
    ensures multiset(r) <= multiset(runs)
    ensures scheduleId.None? || scheduleId == Some(0) ==> r == runs
    ensures scheduleId.Some? && scheduleId != Some(0) ==>
      && |r| == CountFor(runs, scheduleId.value)
      && (forall i :: 0 <= i < |r| ==> r[i].scheduleId == scheduleId)
      && (forall x :: x in runs && x.scheduleId == scheduleId ==> x in r)
  {
    match scheduleId
    case Some(k) => if k == 0 then runs else RunsOf(runs, k)
    case None => runs
  }

  // ---------------------------------------------------------------------------
  // Ordering newest first
  // ---------------------------------------------------------------------------

  /** Ordered by execution time, newest first. */
  predicate NewestFirst(s: seq<Run>) {
    forall i, j :: 0 <= i < j < |s| ==> s[i].executedAt >= s[j].executedAt
  }

  /** Places `x` after every run at least as new, before every older one. */
  function InsertByTime(x: Run, s: seq<Run>): (r: seq<Run>)
    requires NewestFirst(s)
    ensures NewestFirst(r)
    ensures multiset(r) == multiset(s) + multiset{x}
    ensures |r| == |s| + 1
    ensures r[0] == x || (s != [] && r[0] == s[0])
  {
    if s == [] then [x]
    else if s[0].executedAt >= x.executedAt then
      var tail := InsertByTime(x, s[1..]);
      assert s == [s[0]] + s[1..];
      ConsNewestFirst(s[0], tail);
      [s[0]] + tail
    else
      ConsNewestFirst(x, s);
      [x] + s
  }

  /** A run no older than the head of a newest-first sequence can go in front of it. */
  lemma ConsNewestFirst(h: Run, t: seq<Run>)
    requires NewestFirst(t) && (t != [] ==> t[0].executedAt <= h.executedAt)
    ensures NewestFirst([h] + t)
  {
    var s := [h] + t;
    forall i, j | 0 <= i < j < |s|
      ensures s[i].executedAt >= s[j].executedAt
    {
      if i == 0 {
        assert s[j] == t[j - 1];
      }
    }
  }

  /** The run table ordered newest first.  Runs with equal execution times keep
      their insertion order. */
  function ByTimeDesc(runs: seq<Run>): (r: seq<Run>)
    ensures NewestFirst(r)
    ensures multiset(r) == multiset(runs)
    ensures |r| == |runs|
  {
    if runs == [] then []
    else
      var init := runs[..|runs| - 1];
      assert runs == init + [runs[|runs| - 1]];
      InsertByTime(runs[|runs| - 1], ByTimeDesc(init))
  }

  // ---------------------------------------------------------------------------
  // The listing
  // ---------------------------------------------------------------------------

  /** The number of runs listed when the request gives no limit. */
  const DefaultLimit: nat := 100

  /** The run listing: the matching runs, newest first, at most `limit` of them
      (at most `DefaultLimit` when no limit is given). */
  function ListRuns(st: Store, scheduleId: Option<int>, limit: Option<nat>): (r: seq<Run>)
    ensures var n := limit.GetOr(DefaultLimit);
            |r| == if n < |Matching(st.runs, scheduleId)| then n else |Matching(st.runs, scheduleId)|
    ensures limit.None? ==> |r| <= DefaultLimit
    ensures NewestFirst(r)
    ensures multiset(r) <= multiset(Matching(st.runs, scheduleId))
    ensures forall i :: 0 <= i < |r| ==> r[i] in st.runs
    ensures scheduleId.Some? && scheduleId != Some(0) ==>
      forall i :: 0 <= i < |r| ==> r[i].scheduleId == scheduleId
  {
    var matching := Matching(st.runs, scheduleId);
    var sorted := ByTimeDesc(matching);
    var n := limit.GetOr(DefaultLimit);
    var k := if n < |sorted| then n else |sorted|;
    PrefixWithin(sorted, k, matching);
    PrefixWithin(sorted, k, st.runs);
    PrefixNewestFirst(sorted, k);
    PrefixKeepsFilter(sorted, k, st.runs, scheduleId);
    sorted[..k]
  }

  /** A prefix of a newest-first sequence is newest first. */
  lemma PrefixNewestFirst(s: seq<Run>, k: nat)
    requires k <= |s| && NewestFirst(s)
    ensures |s[..k]| == k && NewestFirst(s[..k])
  {
  }

  /** A prefix of a permutation of part of `whole` holds only runs of `whole`. */
  lemma PrefixWithin(s: seq<Run>, k: nat, whole: seq<Run>)
    requires k <= |s| && multiset(s) <= multiset(whole)
    ensures multiset(s[..k]) <= multiset(whole)
    ensures forall i :: 0 <= i < k ==> s[i] in whole && s[..k][i] == s[i]
  {
    assert s == s[..k] + s[k..];
    forall i | 0 <= i < k
      ensures s[i] in whole
    {
      assert s[i] in multiset(s);
    }
  }

  /** Rearranging runs that all belong to one schedule keeps them all belonging to it. */
  lemma PrefixKeepsFilter(s: seq<Run>, k: nat, runs: seq<Run>, scheduleId: Option<int>)
    requires k <= |s| && multiset(s) <= multiset(Matching(runs, scheduleId))
    ensures scheduleId.Some? && scheduleId != Some(0) ==>
      forall i :: 0 <= i < k ==> s[..k][i].scheduleId == scheduleId
  {
    if scheduleId.Some? && scheduleId != Some(0) {
      var m := Matching(runs, scheduleId);
      forall i | 0 <= i < k
        ensures s[i].scheduleId == scheduleId
      {
        assert s[i] in multiset(s);
        assert s[i] in m;
      }
    }
  }

  /** The listing keeps the newest runs: every matching run it leaves out is no
      newer than any run it returns. */
  lemma ListRunsKeepsNewest(st: Store, scheduleId: Option<int>, limit: Option<nat>)
    ensures var r := ListRuns(st, scheduleId, limit);
            forall x, i :: x in multiset(Matching(st.runs, scheduleId)) - multiset(r) && 0 <= i < |r| ==>
              x.executedAt <= r[i].executedAt
  {
    var m := Matching(st.runs, scheduleId);
    var sorted := ByTimeDesc(m);
    var n := limit.GetOr(DefaultLimit);
    var k := if n < |sorted| then n else |sorted|;
    PrefixIsNewest(sorted, k, m, ListRuns(st, scheduleId, limit));
  }

  /** In a newest-first arrangement `sorted` of `m`, nothing left after the prefix
      `r` is newer than anything in it. */
  lemma PrefixIsNewest(sorted: seq<Run>, k: nat, m: seq<Run>, r: seq<Run>)
    requires NewestFirst(sorted) && k <= |sorted|
    requires multiset(sorted) == multiset(m) && r == sorted[..k]
    ensures forall x, i :: x in multiset(m) - multiset(r) && 0 <= i < |r| ==>
              x.executedAt <= r[i].executedAt
  {
    var rest := sorted[k..];
    assert sorted == r + rest;
    assert multiset(sorted) == multiset(r) + multiset(rest);
    forall x: Run, i: int | x in multiset(m) - multiset(r) && 0 <= i < |r|
      ensures x.executedAt <= r[i].executedAt
    {
      assert x in multiset(rest);
      var j :| 0 <= j < |rest| && rest[j] == x;
      assert sorted[k + j] == x && r[i] == sorted[i];
    }
  }

  /** A limit (given, or the default) at least the number of matching runs lists
      all of them. */
  lemma LargeLimitListsAll(st: Store, scheduleId: Option<int>, limit: Option<nat>)
    requires |Matching(st.runs, scheduleId)| <= limit.GetOr(DefaultLimit)
    ensures multiset(ListRuns(st, scheduleId, limit)) == multiset(Matching(st.runs, scheduleId))
  {
    var sorted := ByTimeDesc(Matching(st.runs, scheduleId));
    assert ListRuns(st, scheduleId, limit) == sorted[..|sorted|];
    assert sorted[..|sorted|] == sorted;
  }

  // ---------------------------------------------------------------------------
  // Metrics
  // ---------------------------------------------------------------------------

  /** The run counts the metrics endpoint reports. */
  datatype Metrics = Metrics(total: nat, success: nat, failure: nat)

  /** Number of runs with the given status. */
  function CountStatus(runs: seq<Run>, status: RunStatus): (n: nat)
    ensures n <= |runs|
  {
    if runs == [] then 0
    else CountStatus(runs[..|runs| - 1], status) + (if runs[|runs| - 1].status == status then 1 else 0)
  }

  function SystemMetrics(st: Store): (m: Metrics)
    ensures m.total == |st.runs|
    ensures m.success <= m.total && m.failure <= m.total
  {
    Metrics(|st.runs|, CountStatus(st.runs, Success), CountStatus(st.runs, Failure))
  }

  /** Every run is a success or a failure, so the two counts add up to the total. */
  lemma {:induction false} StatusCountsPartition(runs: seq<Run>)
    ensures CountStatus(runs, Success) + CountStatus(runs, Failure) == |runs|
    decreases |runs|
  {
    if runs != [] {
      StatusCountsPartition(runs[..|runs| - 1]);
    }
  }

  /** The reported success and failure counts add up to the reported total. */
  lemma MetricsAddUp(st: Store)
    ensures SystemMetrics(st).success + SystemMetrics(st).failure == SystemMetrics(st).total
  {
    StatusCountsPartition(st.runs);
  }

  /** Logging one run adds one to the total and one to exactly the count of its status. */
  lemma MetricsAfterLogging(st: Store, run: Run)
    ensures var m := SystemMetrics(st);
            var m' := SystemMetrics(st.(runs := st.runs + [run]));
            && m'.total == m.total + 1
            && m'.success == m.success + (if run.status == Success then 1 else 0)
            && m'.failure == m.failure + (if run.status == Failure then 1 else 0)
  {
    assert (st.runs + [run])[..|st.runs|] == st.runs;
  }
}

=== FILE: models.dfy ===
/** The records and enumerations stored in the scheduler's three tables
    (targets, schedules, runs). */
module Models {
  import opened Wrappers

  /** Lifecycle of a schedule: the only values the status column takes. */
  datatype ScheduleStatus = Active | Paused | Completed

  /** Outcome of one execution. */
  datatype RunStatus = Success | Failure

  /** A JSON value inside a schedule configuration. */
  datatype Value = VNull | VInt(i: int) | VStr(s: string)

  /** A schedule configuration: a JSON object. */
  type Config = map<string, Value>

  /** `config.get(key)`: the value under `key`, or nothing. */
  function Lookup(c: Config, key: string): Option<Value> {
    if key in c then Some(c[key]) else None
  }

  /** Python truthiness of a looked-up value (`None`, `0` and `""` are false). */
  predicate Truthy(v: Option<Value>) {
    match v
    case None => false
    case Some(VNull) => false
    case Some(VInt(i)) => i != 0
    case Some(VStr(s)) => s != ""
  }

  /** An HTTP endpoint that schedules fire against. */
  datatype Target = Target(
    url: string,
    httpMethod: string,
    headers: map<string, string>,
    bodyTemplate: Option<string>)

  /** A schedule: which target, which strategy (the `kind` tag) and its settings,
      where it is in its lifecycle and when it is next due. */
  datatype Schedule = Schedule(
    targetId: int,
    kind: string,
    config: Config,
    status: ScheduleStatus,
    nextRunAt: int)

  /** One execution record.  The schedule reference is nullable. */
  datatype Run = Run(
    scheduleId: Option<int>,
    executedAt: int,
    status: RunStatus,
    statusCode: int,
    latencyMs: int,
    responseBody: string)

  const DefaultMethod: string := "GET"

  /** A target row as inserted: an omitted method is GET, omitted headers are empty. */
  function NewTarget(url: string, httpMethod: Option<string>, headers: Option<map<string, string>>,
                     bodyTemplate: Option<string>): (t: Target)
    ensures t.url == url && t.bodyTemplate == bodyTemplate
    ensures httpMethod.None? ==> t.httpMethod == DefaultMethod
    ensures headers.None? ==> t.headers == map[]
    ensures httpMethod.Some? ==> t.httpMethod == httpMethod.value
    ensures headers.Some? ==> t.headers == headers.value
  {
    Target(url, httpMethod.GetOr(DefaultMethod), headers.GetOr(map[]), bodyTemplate)
  }

  /** A schedule row as inserted at time `createdAt`: it starts ACTIVE and is due at once. */
  function NewSchedule(targetId: int, kind: string, config: Config, createdAt: int): (s: Schedule)
    ensures s.status == Active && s.nextRunAt == createdAt
    ensures s.targetId == targetId && s.kind == kind && s.config == config
  {
    Schedule(targetId, kind, config, Active, createdAt)
  }
}

=== FILE: scheduler.dfy ===
/** One pass of the background scheduler loop as a pure state transition: select
    the due schedules, and for each in turn execute it (logging its Run), then ask
    its strategy for the next fire time and either move the schedule to it or mark
    it COMPLETED.  The clock reading and the HTTP outcomes are inputs.

    The transition functions carry no postconditions of their own; what they do is
    stated by the lemmas that follow them, so that each proof only sees the facts
    it asks for. */
module Scheduler {
  import opened Wrappers
  import opened Models
  import opened Dates
  import opened Tables
  import opened CoreLogic

  /** The schedules the loop's query selects: ACTIVE and with `next_run_at <= now`. */
  predicate IsDue(s: Schedule, now: int) {
    s.status == Active && s.nextRunAt <= now
  }

  predicate Increasing(ids: seq<int>) {
    forall i, j :: 0 <= i < j < |ids| ==> ids[i] < ids[j]
  }

  /** Due schedule ids in `[k, nextScheduleId)`, ascending. */
  function DueFrom(st: Store, now: int, k: int): (ids: seq<int>)
    ensures forall i :: 0 <= i < |ids| ==>
      k <= ids[i] < st.nextScheduleId && ids[i] in st.schedules && IsDue(st.schedules[ids[i]], now)
    ensures forall id :: k <= id < st.nextScheduleId && id in st.schedules && IsDue(st.schedules[id], now) ==> id in ids
    ensures Increasing(ids)
    decreases st.nextScheduleId - k
  {
    if k >= st.nextScheduleId then []
    else if k in st.schedules && IsDue(st.schedules[k], now) then [k] + DueFrom(st, now, k + 1)
    else DueFrom(st, now, k + 1)
  }

  /** The selection of one tick: exactly the due schedules, each once, in id order. */
  function Due(st: Store, now: int): (ids: seq<int>)
    ensures forall i :: 0 <= i < |ids| ==> ids[i] in st.schedules && IsDue(st.schedules[ids[i]], now)
    ensures Valid(st) ==> forall id :: id in st.schedules && IsDue(st.schedules[id], now) ==> id in ids
    ensures Increasing(ids)
  {
    DueFrom(st, now, 1)
  }

  /** The loop's update after resolving: a next time moves the schedule to it,
      "none" marks it COMPLETED and leaves `next_run_at` where it was. */
  function Settle(s: Schedule, next: Option<int>): (r: Schedule)
    ensures r.targetId == s.targetId && r.kind == s.kind && r.config == s.config
    ensures next.Some? ==> r.status == s.status && r.nextRunAt == next.value
    ensures next.None? ==> r.status == Completed && r.nextRunAt == s.nextRunAt
  {
    if next.Some? then s.(nextRunAt := next.value) else s.(status := Completed)
  }

  /** The store after a tick, and the schedule whose resolution raised, if one did
      (the loop swallows that exception and abandons the rest of the tick). */
  datatype Sweep = Sweep(store: Store, crashed: Option<int>)

  /** Applying the same answer twice is applying it once. */
  lemma SettleTwice(s: Schedule, next: Option<int>)
    ensures Settle(Settle(s, next), next) == Settle(s, next)
  {
  }

  /** A tick changes a schedule's status and `next_run_at` only. */
  predicate SameRow(a: Schedule, b: Schedule) {
    a.targetId == b.targetId && a.kind == b.kind && a.config == b.config
  }

  /** `st'` differs from `st` only in the status and `next_run_at` of the
      schedules in `ids` and in its run table. */
  predicate Framed(st: Store, st': Store, ids: seq<int>) {
    && st'.targets == st.targets
    && st'.nextTargetId == st.nextTargetId && st'.nextScheduleId == st.nextScheduleId
    && st'.schedules.Keys == st.schedules.Keys
    && (forall k :: k in st.schedules ==> SameRow(st'.schedules[k], st.schedules[k]))
    && (forall k :: k in st.schedules && k !in ids ==> st'.schedules[k] == st.schedules[k])
  }

  /** One due schedule: execute it (the database logger commits its Run), then
      resolve against the clock with the Run already counted, then apply the
      update block, which the loop writes out twice. */
  function Fire(st: Store, id: int, now: int, x: Exchange, cal: Calendar): Sweep
    requires id in st.schedules
  {
    var s := st.schedules[id];
    var run := Classify(id, x, now);
    var logged := st.(runs := NotifyAll(Loggers, run, st.runs));
    match GetNextRun(s.kind, s.config, now, CountFor(logged.runs, id), cal)
    case Err(_) => Sweep(logged, Some(id))
    case Ok(next) =>
      var once := Settle(s, next);
      var twice := Settle(once, next);
      Sweep(logged.(schedules := logged.schedules[id := twice]), None)
  }

  /** Firing one schedule appends exactly its Run, touches no other schedule,
      and aborts only on itself. */
  lemma FireFrame(st: Store, id: int, now: int, x: Exchange, cal: Calendar)
    requires id in st.schedules
    ensures Framed(st, Fire(st, id, now, x, cal).store, [id])
    ensures Fire(st, id, now, x, cal).store.runs == st.runs + [Classify(id, x, now)]
    ensures Fire(st, id, now, x, cal).crashed.Some? ==> Fire(st, id, now, x, cal).crashed == Some(id)
  {
    LoggerAppendsOnce(Classify(id, x, now), st.runs);
  }

  /** What `Fire` does with the strategy's answer: the answer is computed for the
      clock reading and the run count that already includes the new Run; a raise
      leaves the schedule as it was, and the twice-written update block has the
      effect of applying it once. */
  lemma FireResolves(st: Store, id: int, now: int, x: Exchange, cal: Calendar)
    requires id in st.schedules
    ensures var r := Fire(st, id, now, x, cal);
            var s := st.schedules[id];
            var next := GetNextRun(s.kind, s.config, now, CountFor(st.runs, id) + 1, cal);
            && (r.crashed.None? <==> next.Ok?)
            && (next.Err? ==> r.store.schedules[id] == s)
            && (next.Ok? ==> r.store.schedules[id] == Settle(s, next.value))
  {
    var s := st.schedules[id];
    var run := Classify(id, x, now);
    LoggerAppendsOnce(run, st.runs);
    CountForAppendOne(st.runs, run, id);
    var next := GetNextRun(s.kind, s.config, now, CountFor(st.runs, id) + 1, cal);
    if next.Ok? {
      SettleTwice(s, next.value);
    }
  }

  /** The loop body over the selected ids, in order; `http` answers the request
      made for each schedule id. */
  function FireAll(st: Store, ids: seq<int>, now: int, http: int -> Exchange, cal: Calendar): Sweep
    requires forall i :: 0 <= i < |ids| ==> ids[i] in st.schedules
    decreases |ids|
  {
    if ids == [] then Sweep(st, None)
    else
      var f := Fire(st, ids[0], now, http(ids[0]), cal);
      if f.crashed.Some? then f
      else
        FireFrame(st, ids[0], now, http(ids[0]), cal);
        FireAll(f.store, ids[1..], now, http, cal)
  }

  /** One step of a pass: the first selected schedule is fired, and the pass
      stops there when it aborts and goes on with the rest otherwise. */
  lemma FireAllStep(st: Store, ids: seq<int>, now: int, http: int -> Exchange, cal: Calendar)
    requires forall i :: 0 <= i < |ids| ==> ids[i] in st.schedules
    requires ids != []
    ensures var f := Fire(st, ids[0], now, http(ids[0]), cal);
            f.crashed.Some? ==> FireAll(st, ids, now, http, cal) == f
    ensures var f := Fire(st, ids[0], now, http(ids[0]), cal);
            f.crashed.None? ==>
              && (forall i :: 0 <= i < |ids[1..]| ==> ids[1..][i] in f.store.schedules)
              && FireAll(st, ids, now, http, cal) == FireAll(f.store, ids[1..], now, http, cal)
  {
    FireFrame(st, ids[0], now, http(ids[0]), cal);
  }

  /** A pass touches only the selected schedules, and aborts only on one of them. */
  lemma {:induction false} FireAllFrame(st: Store, ids: seq<int>, now: int, http: int -> Exchange, cal: Calendar)
    requires forall i :: 0 <= i < |ids| ==> ids[i] in st.schedules
    ensures Framed(st, FireAll(st, ids, now, http, cal).store, ids)
    ensures FireAll(st, ids, now, http, cal).crashed.Some? ==> FireAll(st, ids, now, http, cal).crashed.value in ids
    decreases |ids|
  {
    if ids != [] {
      FireFrame(st, ids[0], now, http(ids[0]), cal);
      var f := Fire(st, ids[0], now, http(ids[0]), cal);
      if f.crashed.None? {
        FireAllFrame(f.store, ids[1..], now, http, cal);
      }
    }
  }

  /** The Runs a pass over `ids` logs when nothing raises, in order. */
  function RunsFor(ids: seq<int>, now: int, http: int -> Exchange): (runs: seq<Run>)
    ensures |runs| == |ids|
    ensures forall i :: 0 <= i < |ids| ==> runs[i].scheduleId == Some(ids[i]) && runs[i].executedAt == now
  {
    if ids == [] then [] else [Classify(ids[0], http(ids[0]), now)] + RunsFor(ids[1..], now, http)
  }

  /** Regrouping run sequences, named so the proof of `FireAllRuns` can use it as a
      single step instead of searching for it. */
  lemma ConcatAssoc(a: seq<Run>, b: seq<Run>, c: seq<Run>)
    ensures (a + b) + c == a + (b + c)
  {
  }

  /** A pass that does not abort logs one Run per selected id, in order, each
      stamped with the tick's clock reading. */
  lemma {:induction false} FireAllRuns(st: Store, ids: seq<int>, now: int, http: int -> Exchange, cal: Calendar)
    requires forall i :: 0 <= i < |ids| ==> ids[i] in st.schedules
    ensures var r := FireAll(st, ids, now, http, cal);
            r.crashed.None? ==> r.store.runs == st.runs + RunsFor(ids, now, http)
    decreases |ids|
  {
    if ids != [] {
      FireFrame(st, ids[0], now, http(ids[0]), cal);
      var f := Fire(st, ids[0], now, http(ids[0]), cal);
      if f.crashed.None? {
        var c := Classify(ids[0], http(ids[0]), now);
        var r := FireAll(f.store, ids[1..], now, http, cal);
        assert FireAll(st, ids, now, http, cal) == r;
        FireAllRuns(f.store, ids[1..], now, http, cal);
        if r.crashed.None? {
          calc {
            r.store.runs;
            f.store.runs + RunsFor(ids[1..], now, http);
            (st.runs + [c]) + RunsFor(ids[1..], now, http);
            { ConcatAssoc(st.runs, [c], RunsFor(ids[1..], now, http)); }
            st.runs + ([c] + RunsFor(ids[1..], now, http));
            st.runs + RunsFor(ids, now, http);
          }
        }
      }
    }
  }

  /** One tick at clock reading `now`. */
  function Tick(st: Store, now: int, http: int -> Exchange, cal: Calendar): Sweep
  {
    FireAll(st, Due(st, now), now, http, cal)
  }

  /** A tick touches only due schedules, and only their status and `next_run_at`. */
  lemma TickFrame(st: Store, now: int, http: int -> Exchange, cal: Calendar)
    ensures Framed(st, Tick(st, now, http, cal).store, Due(st, now))
  {
    FireAllFrame(st, Due(st, now), now, http, cal);
  }

  /** The clock reading and the HTTP answers of one tick. */
  datatype Step = Step(now: int, http: int -> Exchange)

  /** Consecutive ticks. */
  function Ticks(st: Store, steps: seq<Step>, cal: Calendar): Store
    decreases |steps|
  {
    if steps == [] then st
    else Ticks(Tick(st, steps[0].now, steps[0].http, cal).store, steps[1..], cal)
  }

  // ---------------------------------------------------------------------------
  // What one tick does to one schedule
  // ---------------------------------------------------------------------------

  /** Schedule `s` with `c` Runs has been executed once and settled: it now has
      `c + 1` Runs and is `s'`, which is `s` when the strategy's answer `next`
      raised and `s` settled with `next` otherwise. */
  predicate Processed(s: Schedule, c: nat, s': Schedule, c': nat, next: Result<Option<int>, ResolveError>) {
    && c' == c + 1
    && (next.Err? ==> s' == s)
    && (next.Ok? ==> s' == Settle(s, next.value))
  }

  /** Schedule `id` and its run count are the same in `st'` as in `st`. */
  predicate Untouched(st: Store, st': Store, id: int) {
    && id in st.schedules && id in st'.schedules
    && st'.schedules[id] == st.schedules[id]
    && CountFor(st'.runs, id) == CountFor(st.runs, id)
  }

  /** The strategy's answer for schedule `id` executed at `now` in `st`: the
      run count it is given already includes that execution. */
  function NextFor(st: Store, id: int, now: int, cal: Calendar): Result<Option<int>, ResolveError>
    requires id in st.schedules
  {
    GetNextRun(st.schedules[id].kind, st.schedules[id].config, now, CountFor(st.runs, id) + 1, cal)
  }

  /** Schedule `id` of `st` has been executed once at `now` and settled in `st'`. */
  predicate Done(st: Store, st': Store, id: int, now: int, cal: Calendar) {
    && id in st.schedules && id in st'.schedules
    && Processed(st.schedules[id], CountFor(st.runs, id), st'.schedules[id], CountFor(st'.runs, id),
                 NextFor(st, id, now, cal))
  }

  /** Firing one schedule leaves every other schedule and its run count alone. */
  lemma FireOther(st: Store, j: int, now: int, x: Exchange, cal: Calendar, id: int)
    requires j in st.schedules && id in st.schedules && j != id
    ensures Untouched(st, Fire(st, j, now, x, cal).store, id)
  {
    FireFrame(st, j, now, x, cal);
    CountForAppendOne(st.runs, Classify(j, x, now), id);
  }

  /** Firing a schedule processes it, and aborts exactly when its strategy raises. */
  lemma FireSelf(st: Store, id: int, now: int, x: Exchange, cal: Calendar)
    requires id in st.schedules
    ensures Done(st, Fire(st, id, now, x, cal).store, id, now, cal)
    ensures Fire(st, id, now, x, cal).crashed.None? <==> NextFor(st, id, now, cal).Ok?
  {
    FireFrame(st, id, now, x, cal);
    FireResolves(st, id, now, x, cal);
    CountForAppendOne(st.runs, Classify(id, x, now), id);
    assert CountFor(Fire(st, id, now, x, cal).store.runs, id) == CountFor(st.runs, id) + 1;
  }

  /** A pass leaves a schedule it did not select, and its run count, alone. */
  lemma {:induction false} FireAllUnselected(st: Store, ids: seq<int>, now: int, http: int -> Exchange,
                                             cal: Calendar, id: int)
    requires forall i :: 0 <= i < |ids| ==> ids[i] in st.schedules
    requires id in st.schedules && id !in ids
    ensures Untouched(st, FireAll(st, ids, now, http, cal).store, id)
    decreases |ids|
  {
    if ids != [] {
      var f := Fire(st, ids[0], now, http(ids[0]), cal);
      FireOther(st, ids[0], now, http(ids[0]), cal, id);
      FireAllStep(st, ids, now, http, cal);
      if f.crashed.None? {
        assert id !in ids[1..];
        FireAllUnselected(f.store, ids[1..], now, http, cal, id);
      }
    }
  }

  /** A schedule left untouched by one step is, after a later step, exactly as
      untouched or as processed as it would have been from the start. */
  lemma UntouchedThen(st: Store, mid: Store, st': Store, id: int, now: int, cal: Calendar)
    requires Untouched(st, mid, id)
    ensures NextFor(mid, id, now, cal) == NextFor(st, id, now, cal)
    ensures Untouched(mid, st', id) ==> Untouched(st, st', id)
    ensures Done(mid, st', id, now, cal) ==> Done(st, st', id, now, cal)
  {
  }

  lemma IncreasingTail(ids: seq<int>)
    requires Increasing(ids) && ids != []
    ensures Increasing(ids[1..])
    ensures forall i :: 0 <= i < |ids[1..]| ==> ids[1..][i] == ids[i + 1] && ids[0] < ids[i + 1]
  {
  }

  /** The first selected schedule is processed by the pass; the pass aborts
      right there exactly when its strategy raises, and otherwise leaves it alone
      for the rest of the pass. */
  lemma FireAllFirst(st: Store, ids: seq<int>, now: int, http: int -> Exchange, cal: Calendar)
    requires forall i :: 0 <= i < |ids| ==> ids[i] in st.schedules
    requires Increasing(ids) && ids != []
    ensures var r := FireAll(st, ids, now, http, cal);
            && Done(st, r.store, ids[0], now, cal)
            && (r.crashed.None? ==> NextFor(st, ids[0], now, cal).Ok?)
  {
    var id := ids[0];
    var f := Fire(st, id, now, http(id), cal);
    FireSelf(st, id, now, http(id), cal);
    FireAllStep(st, ids, now, http, cal);
    if f.crashed.None? {
      var rest := ids[1..];
      IncreasingTail(ids);
      assert id !in rest;
      FireAllUnselected(f.store, rest, now, http, cal, id);
    }
  }

  /** A pass processes each schedule it selects exactly once -- unless a strategy
      raised before reaching it, which leaves it untouched -- and a pass that
      does not abort has processed every one without a raise. */
  lemma {:induction false} FireAllSelected(st: Store, ids: seq<int>, now: int, http: int -> Exchange,
                                           cal: Calendar, id: int)
    requires forall i :: 0 <= i < |ids| ==> ids[i] in st.schedules
    requires Increasing(ids) && id in ids
    ensures var r := FireAll(st, ids, now, http, cal);
            (Untouched(st, r.store, id) && r.crashed.Some?) || Done(st, r.store, id, now, cal)
    ensures var r := FireAll(st, ids, now, http, cal);
            r.crashed.None? ==> NextFor(st, id, now, cal).Ok? && Done(st, r.store, id, now, cal)
    decreases |ids|
  {
    if ids[0] == id {
      FireAllFirst(st, ids, now, http, cal);
    } else {
      var f := Fire(st, ids[0], now, http(ids[0]), cal);
      FireOther(st, ids[0], now, http(ids[0]), cal, id);
      FireAllStep(st, ids, now, http, cal);
      if f.crashed.None? {
        var rest := ids[1..];
        IncreasingTail(ids);
        var j :| 0 <= j < |ids| && ids[j] == id;
        assert rest[j - 1] == id;
        FireAllSelected(f.store, rest, now, http, cal, id);
        UntouchedThen(st, f.store, FireAll(f.store, rest, now, http, cal).store, id, now, cal);
      }
    }
  }

  /** A tick, seen from one schedule: one that is not due is untouched and gains
      no Run.  One that is due gains exactly one Run, however stale its
      `next_run_at`, and is settled with its strategy's answer for the current
      clock and the run count that includes the new Run -- unless a strategy
      raised earlier in the tick, which leaves it untouched. */
  lemma TickEffect(st: Store, now: int, http: int -> Exchange, cal: Calendar, id: int)
    requires Valid(st)
    requires id in st.schedules
    ensures var r := Tick(st, now, http, cal);
            !IsDue(st.schedules[id], now) ==> Untouched(st, r.store, id)
    ensures var r := Tick(st, now, http, cal);
            IsDue(st.schedules[id], now) ==>
              (Untouched(st, r.store, id) && r.crashed.Some?) || Done(st, r.store, id, now, cal)
    ensures var r := Tick(st, now, http, cal);
            IsDue(st.schedules[id], now) && r.crashed.None? ==>
              NextFor(st, id, now, cal).Ok? && Done(st, r.store, id, now, cal)
  {
    var ids := Due(st, now);
    assert id in ids <==> IsDue(st.schedules[id], now);
    if id in ids {
      FireAllSelected(st, ids, now, http, cal, id);
    } else {
      FireAllUnselected(st, ids, now, http, cal, id);
    }
  }

  /** A pass logs Runs only for schedules it selected, so every run still
      references an existing schedule or none. */
  lemma {:induction false} FireAllKeepsReferences(st: Store, ids: seq<int>, now: int, http: int -> Exchange,
                                                  cal: Calendar)
    requires forall i :: 0 <= i < |ids| ==> ids[i] in st.schedules
    requires RunsReferenceSchedules(st.runs, st.schedules)
    ensures var r := FireAll(st, ids, now, http, cal).store;
            RunsReferenceSchedules(r.runs, r.schedules)
    decreases |ids|
  {
    if ids != [] {
      FireFrame(st, ids[0], now, http(ids[0]), cal);
      FireAllStep(st, ids, now, http, cal);
      var f := Fire(st, ids[0], now, http(ids[0]), cal);
      assert RunsReferenceSchedules(f.store.runs, f.store.schedules) by {
        assert f.store.schedules.Keys == st.schedules.Keys;
        assert f.store.runs == st.runs + [Classify(ids[0], http(ids[0]), now)];
      }
      if f.crashed.None? {
        FireAllKeepsReferences(f.store, ids[1..], now, http, cal);
      }
    }
  }

  /** Ticks leave the store invariant intact. */
  lemma TickPreservesValid(st: Store, now: int, http: int -> Exchange, cal: Calendar)
    requires Valid(st)
    ensures Valid(Tick(st, now, http, cal).store)
  {
    TickFrame(st, now, http, cal);
    FireAllKeepsReferences(st, Due(st, now), now, http, cal);
  }

  /** Every schedule's configuration can be resolved without raising. */
  predicate AllResolvable(st: Store, cal: Calendar) {
    forall id :: id in st.schedules ==> Resolvable(st.schedules[id].kind, st.schedules[id].config, cal)
  }

  /** Resolvability depends only on the rows' configuration, which ticks keep. */
  lemma FramedKeepsResolvable(st: Store, st': Store, ids: seq<int>, cal: Calendar)
    requires Framed(st, st', ids) && AllResolvable(st, cal)
    ensures AllResolvable(st', cal)
  {
    forall k | k in st'.schedules
      ensures Resolvable(st'.schedules[k].kind, st'.schedules[k].config, cal)
    {
      assert SameRow(st'.schedules[k], st.schedules[k]);
    }
  }

  /** When no configuration can make a strategy raise, a pass never aborts. */
  lemma {:induction false} FireAllCompletes(st: Store, ids: seq<int>, now: int, http: int -> Exchange, cal: Calendar)
    requires forall i :: 0 <= i < |ids| ==> ids[i] in st.schedules
    requires AllResolvable(st, cal)
    ensures FireAll(st, ids, now, http, cal).crashed.None?
    decreases |ids|
  {
    if ids != [] {
      var s := st.schedules[ids[0]];
      ResolvableNeverRaises(s.kind, s.config, now, CountFor(st.runs, ids[0]) + 1, cal);
      FireResolves(st, ids[0], now, http(ids[0]), cal);
      FireFrame(st, ids[0], now, http(ids[0]), cal);
      var f := Fire(st, ids[0], now, http(ids[0]), cal);
      FramedKeepsResolvable(st, f.store, [ids[0]], cal);
      FireAllCompletes(f.store, ids[1..], now, http, cal);
    }
  }

  /** When no configuration can make a strategy raise, no tick aborts, and that
      stays so after the tick. */
  lemma TickCompletes(st: Store, now: int, http: int -> Exchange, cal: Calendar)
    requires AllResolvable(st, cal)
    ensures Tick(st, now, http, cal).crashed.None?
    ensures AllResolvable(Tick(st, now, http, cal).store, cal)
  {
    FireAllCompletes(st, Due(st, now), now, http, cal);
    TickFrame(st, now, http, cal);
    FramedKeepsResolvable(st, Tick(st, now, http, cal).store, Due(st, now), cal);
  }

  // ---------------------------------------------------------------------------
  // Interval schedules
  // ---------------------------------------------------------------------------

  /** A due INTERVAL schedule fires once and is re-anchored on the clock: its next
      time becomes `now + interval`, whatever its previous `next_run_at`, and it
      stays ACTIVE. */
  lemma IntervalReanchorsOnClock(st: Store, now: int, http: int -> Exchange, cal: Calendar, id: int, iv: int)
    requires Valid(st) && id in st.schedules
    requires st.schedules[id].kind == "INTERVAL" && IsDue(st.schedules[id], now)
    requires IntervalSeconds(st.schedules[id].config) == Ok(iv)
    ensures id in Tick(st, now, http, cal).store.schedules
    ensures var r := Tick(st, now, http, cal);
            r.crashed.None? ==>
              && r.store.schedules[id].nextRunAt == now + iv
              && r.store.schedules[id].status == Active
              && CountFor(r.store.runs, id) == CountFor(st.runs, id) + 1
  {
    var s := st.schedules[id];
    var c := CountFor(st.runs, id);
    IntervalAddsInterval(s.config, now, c + 1, c + 1, cal, iv);
    assert NextFor(st, id, now, cal) == Ok(Some(now + iv));
    TickEffect(st, now, http, cal, id);
  }

  // ---------------------------------------------------------------------------
  // Paused and completed schedules
  // ---------------------------------------------------------------------------

  /** A schedule that is not ACTIVE is frozen by any number of ticks: it never
      fires and keeps every field. */
  lemma {:induction false} InactiveIsFrozen(st: Store, steps: seq<Step>, cal: Calendar, id: int)
    requires Valid(st)
    requires id in st.schedules && st.schedules[id].status != Active
    ensures id in Ticks(st, steps, cal).schedules
    ensures Ticks(st, steps, cal).schedules[id] == st.schedules[id]
    ensures CountFor(Ticks(st, steps, cal).runs, id) == CountFor(st.runs, id)
    decreases |steps|
  {
    if steps != [] {
      var t := Tick(st, steps[0].now, steps[0].http, cal);
      TickEffect(st, steps[0].now, steps[0].http, cal, id);
      assert Untouched(st, t.store, id);
      TickPreservesValid(st, steps[0].now, steps[0].http, cal);
      InactiveIsFrozen(t.store, steps[1..], cal, id);
    }
  }

  // ---------------------------------------------------------------------------
  // Window schedules with a run limit
  // ---------------------------------------------------------------------------

  /** A WINDOW schedule with run limit `n > 0` and a readable window end, that has
      never gone past its limit and is ACTIVE only while below it. */
  predicate WindowCapped(st: Store, id: int, n: int, cal: Calendar) {
    && id in st.schedules
    && st.schedules[id].kind == "WINDOW"
    && Lookup(st.schedules[id].config, "max_runs") == Some(VInt(n)) && n > 0
    && EndTime(st.schedules[id].config, cal).Ok?
    && CountFor(st.runs, id) <= n
    && (st.schedules[id].status == Active ==> CountFor(st.runs, id) < n)
  }

  /** Being capped depends on the row's configuration, its status and its count. */
  lemma CappedFrom(st: Store, st': Store, id: int, n: int, cal: Calendar)
    requires WindowCapped(st, id, n, cal)
    requires id in st'.schedules && SameRow(st'.schedules[id], st.schedules[id])
    requires CountFor(st'.runs, id) <= n
    requires st'.schedules[id].status == Active ==> CountFor(st'.runs, id) < n
    ensures WindowCapped(st', id, n, cal)
  {
  }

  /** One tick keeps a capped window schedule capped: the tick that logs its
      `n`-th Run also marks it COMPLETED, since the Run is counted before the
      strategy is asked. */
  lemma TickKeepsWindowCapped(st: Store, now: int, http: int -> Exchange, cal: Calendar, id: int, n: int)
    requires Valid(st) && WindowCapped(st, id, n, cal)
    ensures WindowCapped(Tick(st, now, http, cal).store, id, n, cal)
  {
    var s := st.schedules[id];
    var c := CountFor(st.runs, id);
    var r := Tick(st, now, http, cal).store;
    TickEffect(st, now, http, cal, id);
    if Untouched(st, r, id) {
      CappedFrom(st, r, id, n, cal);
    } else {
      assert IsDue(s, now) && Done(st, r, id, now, cal);
      if c + 1 >= n {
        WindowAtLimitIsFinished(s.config, now, c + 1, cal, n);
        assert NextFor(st, id, now, cal) == Ok(None);
        assert r.schedules[id] == Settle(s, None);
      }
      CappedFrom(st, r, id, n, cal);
    }
  }

  /** However many ticks run, a capped window schedule never has more than
      `max_runs` Runs. */
  lemma {:induction false} WindowNeverExceedsMaxRuns(st: Store, steps: seq<Step>, cal: Calendar, id: int, n: int)
    requires Valid(st) && WindowCapped(st, id, n, cal)
    ensures WindowCapped(Ticks(st, steps, cal), id, n, cal)
    ensures CountFor(Ticks(st, steps, cal).runs, id) <= n
    decreases |steps|
  {
    if steps != [] {
      var t := Tick(st, steps[0].now, steps[0].http, cal);
      TickKeepsWindowCapped(st, steps[0].now, steps[0].http, cal, id, n);
      TickPreservesValid(st, steps[0].now, steps[0].http, cal);
      WindowNeverExceedsMaxRuns(t.store, steps[1..], cal, id, n);
    }
  }

  /** A WINDOW schedule with run limit `n`, interval `iv` and window end `end`,
      ACTIVE and due, below its limit, in a store where no strategy raises. */
  predicate WindowPending(st: Store, id: int, now: int, cal: Calendar, n: int, iv: int, end: int) {
    && Valid(st) && AllResolvable(st, cal)
    && id in st.schedules
    && st.schedules[id].kind == "WINDOW"
    && Lookup(st.schedules[id].config, "max_runs") == Some(VInt(n))
    && IntervalSeconds(st.schedules[id].config) == Ok(iv)
    && EndTime(st.schedules[id].config, cal) == Ok(end)
    && IsDue(st.schedules[id], now)
    && CountFor(st.runs, id) < n
  }

  /** One tick of a pending window schedule: it gains one Run; the tick that
      reaches the limit completes it, and any earlier tick moves it to
      `now + iv`, keeping it ACTIVE, while that time is inside the window. */
  lemma WindowTickStep(st: Store, now: int, http: int -> Exchange, cal: Calendar, id: int,
                       n: int, iv: int, end: int, later: int)
    requires WindowPending(st, id, now, cal, n, iv, end)
    ensures var t := Tick(st, now, http, cal).store;
            && id in t.schedules
            && CountFor(t.runs, id) == CountFor(st.runs, id) + 1
            && (CountFor(t.runs, id) == n ==> t.schedules[id].status == Completed)
            && (CountFor(t.runs, id) < n && now + iv <= end ==>
                  t.schedules[id].status == Active && t.schedules[id].nextRunAt == now + iv)
            && (CountFor(t.runs, id) < n && now + iv <= end && now + iv <= later ==>
                  WindowPending(t, id, later, cal, n, iv, end))
  {
    var s := st.schedules[id];
    var c := CountFor(st.runs, id);
    var t := Tick(st, now, http, cal).store;
    if c + 1 >= n {
      WindowAtLimitIsFinished(s.config, now, c + 1, cal, n);
      assert NextFor(st, id, now, cal) == Ok(None);
    } else if now + iv <= end {
      WindowBelowLimitAdvances(s.config, now, c + 1, cal, n, iv, end);
      assert NextFor(st, id, now, cal) == Ok(Some(now + iv));
    }
    TickCompletes(st, now, http, cal);
    TickEffect(st, now, http, cal, id);
    assert Done(st, t, id, now, cal);
    TickPreservesValid(st, now, http, cal);
    assert t.schedules[id].config == st.schedules[id].config;
  }

  /** A WINDOW schedule with `max_runs = n` that has `c` Runs, ticked `n - c` times
      while each tick finds it due and the window still open for the next time,
      ends with exactly `n` Runs and COMPLETED. */
  lemma {:induction false} WindowFiresExactlyMaxRuns(st: Store, steps: seq<Step>, cal: Calendar, id: int,
                                                     n: int, iv: int, end: int)
    requires |steps| > 0 && WindowPending(st, id, steps[0].now, cal, n, iv, end)
    requires CountFor(st.runs, id) + |steps| == n
    requires forall k :: 0 <= k < |steps| - 1 ==>
      steps[k].now + iv <= end && steps[k].now + iv <= steps[k + 1].now
    ensures id in Ticks(st, steps, cal).schedules
    ensures CountFor(Ticks(st, steps, cal).runs, id) == n
    ensures Ticks(st, steps, cal).schedules[id].status == Completed
    decreases |steps|
  {
    var t := Tick(st, steps[0].now, steps[0].http, cal).store;
    var more := steps[1..];
    assert Ticks(st, steps, cal) == Ticks(t, more, cal);
    if |steps| == 1 {
      WindowTickStep(st, steps[0].now, steps[0].http, cal, id, n, iv, end, steps[0].now);
    } else {
      WindowTickStep(st, steps[0].now, steps[0].http, cal, id, n, iv, end, steps[1].now);
      assert more[0] == steps[1];
      forall k | 0 <= k < |more| - 1
        ensures more[k].now + iv <= end && more[k].now + iv <= more[k + 1].now
      {
        assert more[k] == steps[k + 1] && more[k + 1] == steps[k + 2];
      }
      WindowFiresExactlyMaxRuns(t, more, cal, id, n, iv, end);
    }
  }

  /** A WINDOW schedule without an `end_time` (which submission lets through when
      the configuration has neither date key) makes its strategy raise when it
      is due: the tick leaves it ACTIVE and due with the same `next_run_at`, and
      abandons the rest of the pass. */
  lemma WindowWithoutEndStaysDue(st: Store, now: int, http: int -> Exchange, cal: Calendar, id: int)
    requires Valid(st) && id in st.schedules
    requires st.schedules[id].kind == "WINDOW" && "end_time" !in st.schedules[id].config
    requires IsDue(st.schedules[id], now)
    ensures var r := Tick(st, now, http, cal);
            && r.crashed.Some?
            && id in r.store.schedules
            && r.store.schedules[id] == st.schedules[id]
            && IsDue(r.store.schedules[id], now)
  {
    var s := st.schedules[id];
    WindowWithoutEndRaises(s.config, now, CountFor(st.runs, id) + 1, cal);
    assert NextFor(st, id, now, cal).Err?;
    TickEffect(st, now, http, cal, id);
  }

  /** However many ticks run, a WINDOW schedule without an `end_time` is never
      settled: it keeps its status and its `next_run_at`, so an ACTIVE one is
      selected again by every tick whose clock has reached that time. */
  lemma {:induction false} WindowWithoutEndNeverSettles(st: Store, steps: seq<Step>, cal: Calendar, id: int)
    requires Valid(st) && id in st.schedules
    requires st.schedules[id].kind == "WINDOW" && "end_time" !in st.schedules[id].config
    ensures id in Ticks(st, steps, cal).schedules
    ensures Ticks(st, steps, cal).schedules[id] == st.schedules[id]
    decreases |steps|
  {
    if steps != [] {
      var t := Tick(st, steps[0].now, steps[0].http, cal);
      if IsDue(st.schedules[id], steps[0].now) {
        WindowWithoutEndStaysDue(st, steps[0].now, steps[0].http, cal, id);
      } else {
        TickEffect(st, steps[0].now, steps[0].http, cal, id);
      }
      TickPreservesValid(st, steps[0].now, steps[0].http, cal);
      WindowWithoutEndNeverSettles(t.store, steps[1..], cal, id);
    }
  }
}

=== FILE: schemas.dfy ===
/** Validation of a submitted schedule configuration.  When the configuration
    mentions a window (a `start_time` or an `end_time` key), both dates are
    parsed, the window must end strictly after it starts, and both dates are
    rewritten in ISO-8601 form.  Nothing else in the configuration is checked. */
module Schemas {
  import opened Wrappers
  import opened Models
  import opened Dates
  import CoreLogic

  /** Why a configuration is refused (each is a validation error reported to the caller). */
  datatype ValidationError =
    | InvalidDate(v: Value)
    | MissingEndTime
    | EndNotAfterStart

  /** The literal that stands for the submission time. */
  const NowLiteral: string := "now"

  /** The validator's date reader: a falsy value (absent, null, 0, "") gives no
      date, the literal "now" gives the clock reading, a string goes through the
      lenient parser, and anything that parser cannot read (a number included)
      is refused. */
  function ParseDt(val: Option<Value>, now: int, cal: Calendar): (r: Result<Option<int>, ValidationError>)
    ensures r == Ok(None) <==> !Truthy(val)
    ensures val == Some(VStr(NowLiteral)) ==> r == Ok(Some(now))
    ensures r.Err? ==> r.error == InvalidDate(val.value) && Truthy(val)
    ensures r.Err? <==> Truthy(val) && (val.value.VInt? || (val.value.s != NowLiteral && cal.parse(val.value.s, now).None?))
    ensures r.Ok? && r.value.Some? && r.value.value != now ==>
      val.value.VStr? && cal.parse(val.value.s, now) == r.value
    ensures Truthy(val) && val.value.VStr? && val.value.s != NowLiteral && cal.parse(val.value.s, now).Some? ==>
      r == Ok(cal.parse(val.value.s, now))
  {
    match val
    case Some(VStr(text)) =>
      if text == "" then Ok(None)
      else if text == NowLiteral then Ok(Some(now))
      else (match cal.parse(text, now)
            case Some(t) => Ok(Some(t))
            case None => Err(InvalidDate(VStr(text))))
    case Some(VInt(i)) => if i == 0 then Ok(None) else Err(InvalidDate(VInt(i)))
    case _ => Ok(None)
  }

  /** Whether the validator looks at the configuration at all. */
  predicate MentionsWindow(v: Config) {
    "start_time" in v || "end_time" in v
  }

  /** The window a configuration describes: its start (the clock reading when
      no start is given) and its end, which must be given and be later. */
  function WindowBounds(v: Config, now: int, cal: Calendar): (r: Result<(int, int), ValidationError>)
    ensures r.Ok? ==> r.value.0 < r.value.1
    ensures r.Ok? ==> ParseDt(Lookup(v, "end_time"), now, cal) == Ok(Some(r.value.1))
    ensures r.Ok? ==> ParseDt(Lookup(v, "start_time"), now, cal) in {Ok(Some(r.value.0)), Ok(None)}
    ensures r.Ok? && ParseDt(Lookup(v, "start_time"), now, cal) == Ok(None) ==> r.value.0 == now
    ensures var start := ParseDt(Lookup(v, "start_time"), now, cal);
            var end := ParseDt(Lookup(v, "end_time"), now, cal);
            r.Ok? <==> && start.Ok? && end.Ok? && end.value.Some?
                       && start.value.GetOr(now) < end.value.value
  {
    match ParseDt(Lookup(v, "start_time"), now, cal)
    case Err(e) => Err(e)
    case Ok(parsedStart) =>
      var start := parsedStart.GetOr(now);
      match ParseDt(Lookup(v, "end_time"), now, cal)
      case Err(e) => Err(e)
      case Ok(None) => Err(MissingEndTime)
      case Ok(Some(end)) => if end <= start then Err(EndNotAfterStart) else Ok((start, end))
  }

  /** The field validator of a schedule submission. */
  function ValidateWindowConfig(v: Config, now: int, cal: Calendar): (r: Result<Config, ValidationError>)
    ensures !MentionsWindow(v) ==> r == Ok(v)
    ensures r.Ok? ==> r.value.Keys == v.Keys + (if MentionsWindow(v) then {"start_time", "end_time"} else {})
    ensures r.Ok? ==> forall k :: k in v && k != "start_time" && k != "end_time" ==> r.value[k] == v[k]
    ensures r.Err? ==> MentionsWindow(v) && WindowBounds(v, now, cal).Err?
    ensures r.Ok? && MentionsWindow(v) ==>
      && WindowBounds(v, now, cal).Ok?
      && r.value["start_time"] == VStr(cal.toIso(WindowBounds(v, now, cal).value.0))
      && r.value["end_time"] == VStr(cal.toIso(WindowBounds(v, now, cal).value.1))
  {
    if !MentionsWindow(v) then Ok(v)
    else match WindowBounds(v, now, cal)
      case Err(e) => Err(e)
      case Ok((start, end)) =>
        Ok(v["start_time" := VStr(cal.toIso(start))]["end_time" := VStr(cal.toIso(end))])
  }

  // ---------------------------------------------------------------------------
  // Properties of the validator
  // ---------------------------------------------------------------------------

  /** A window configuration without a usable `end_time` is refused: missing,
      empty or null gives MissingEndTime (once the start is readable). */
  lemma MissingEndIsRejected(v: Config, now: int, cal: Calendar)
    requires MentionsWindow(v) && !Truthy(Lookup(v, "end_time"))
    ensures ValidateWindowConfig(v, now, cal).Err?
    ensures ParseDt(Lookup(v, "start_time"), now, cal).Ok? ==>
      ValidateWindowConfig(v, now, cal) == Err(MissingEndTime)
  {
  }

  /** An end equal to the start is refused: the window must have positive length. */
  lemma EqualTimesAreRejected(v: Config, now: int, cal: Calendar, t: int)
    requires ParseDt(Lookup(v, "start_time"), now, cal) == Ok(Some(t))
    requires ParseDt(Lookup(v, "end_time"), now, cal) == Ok(Some(t))
    ensures ValidateWindowConfig(v, now, cal) == Err(EndNotAfterStart)
  {
  }

  /** Without a start, the window starts at the submission time, so an end at or
      before the clock reading is refused and a later one accepted. */
  lemma StartDefaultsToNow(v: Config, now: int, cal: Calendar, end: int)
    requires !Truthy(Lookup(v, "start_time"))
    requires ParseDt(Lookup(v, "end_time"), now, cal) == Ok(Some(end))
    ensures ValidateWindowConfig(v, now, cal).Ok? <==> now < end
    ensures now < end ==> ValidateWindowConfig(v, now, cal).value["start_time"] == VStr(cal.toIso(now))
  {
    assert MentionsWindow(v);
  }

  /** `interval_seconds` plays no part in validation: changing it neither makes a
      configuration acceptable nor refused, and it passes through untouched --
      even a negative interval, or one longer than the window. */
  lemma IntervalIsNeverChecked(v: Config, now: int, cal: Calendar, x: Value)
    ensures var r1 := ValidateWindowConfig(v, now, cal);
            var r2 := ValidateWindowConfig(v["interval_seconds" := x], now, cal);
            && (r1.Ok? <==> r2.Ok?)
            && (r1.Ok? ==> r2.value == r1.value["interval_seconds" := x])
  {
    var w := v["interval_seconds" := x];
    assert Lookup(w, "start_time") == Lookup(v, "start_time");
    assert Lookup(w, "end_time") == Lookup(v, "end_time");
    assert MentionsWindow(w) == MentionsWindow(v);
    var r1 := ValidateWindowConfig(v, now, cal);
    var r2 := ValidateWindowConfig(w, now, cal);
    if r1.Ok? {
      assert r2.value == r1.value["interval_seconds" := x];
    }
  }

  /** What the window strategy later reads from an accepted window configuration:
      when the ISO reader reads back what the ISO writer writes, the strategy
      finds the validated end, and it is strictly after the validated start. */
  lemma ValidatedEndIsReadBack(v: Config, now: int, cal: Calendar)
    requires IsoRoundTrip(cal)
    requires MentionsWindow(v) && ValidateWindowConfig(v, now, cal).Ok?
    ensures var c := ValidateWindowConfig(v, now, cal).value;
            var b := WindowBounds(v, now, cal).value;
            && CoreLogic.EndTime(c, cal) == Ok(b.1)
            && cal.fromIso(c["start_time"].s) == Some(b.0)
            && b.0 < b.1
  {
    var b := WindowBounds(v, now, cal).value;
    assert cal.fromIso(cal.toIso(b.0)) == Some(b.0);
    assert cal.fromIso(cal.toIso(b.1)) == Some(b.1);
  }

  /** The lenient parser reads the ISO writer's output back on any day, and that
      output is never falsy and never the "now" literal. */
  ghost predicate ParserReadsIso(cal: Calendar) {
    && (forall t :: cal.toIso(t) != "" && cal.toIso(t) != NowLiteral)
    && (forall t, day :: cal.parse(cal.toIso(t), day) == Some(t))
  }

  /** Validation is idempotent: resubmitting an accepted configuration is
      accepted and gives it back unchanged, whenever it is resubmitted. */
  lemma ValidationIsIdempotent(v: Config, now: int, later: int, cal: Calendar)
    requires ParserReadsIso(cal)
    requires ValidateWindowConfig(v, now, cal).Ok?
    ensures var c := ValidateWindowConfig(v, now, cal).value;
            ValidateWindowConfig(c, later, cal) == Ok(c)
  {
    var c := ValidateWindowConfig(v, now, cal).value;
    if MentionsWindow(v) {
      var b := WindowBounds(v, now, cal).value;
      assert cal.parse(cal.toIso(b.0), later) == Some(b.0);
      assert cal.parse(cal.toIso(b.1), later) == Some(b.1);
      assert Lookup(c, "start_time") == Some(VStr(cal.toIso(b.0)));
      assert Lookup(c, "end_time") == Some(VStr(cal.toIso(b.1)));
      assert WindowBounds(c, later, cal) == Ok(b);
      assert c["start_time" := VStr(cal.toIso(b.0))]["end_time" := VStr(cal.toIso(b.1))] == c;
    }
  }
}

=== FILE: tables.dfy ===
/** The database as a value: the three tables and the id counters that allocate
    fresh primary keys. */
module Tables {
  import opened Wrappers
  import opened Models

  /** Targets and schedules keyed by id; runs in insertion order.  A new row
      takes the next value of its table's counter, so ids are never reused. */
  datatype Store = Store(
    targets: map<int, Target>,
    schedules: map<int, Schedule>,
    runs: seq<Run>,
    nextTargetId: int,
    nextScheduleId: int)

  /** The freshly created database. */
  const Empty: Store := Store(map[], map[], [], 1, 1)

  /** Every run's schedule reference, when set, names a schedule of the table:
      a Run is logged only for a schedule being executed, and deleting a
      schedule nulls the references of its runs. */
  predicate RunsReferenceSchedules(runs: seq<Run>, schedules: map<int, Schedule>) {
    forall i :: 0 <= i < |runs| && runs[i].scheduleId.Some? ==> runs[i].scheduleId.value in schedules
  }

  /** Counters start at 1, keys are positive and below their counter, every
      schedule's target exists (creation checks it, target deletion refuses to
      break it), and every run references an existing schedule or none. */
  predicate Valid(st: Store) {
    && 1 <= st.nextTargetId && 1 <= st.nextScheduleId
    && (forall id :: id in st.targets ==> 1 <= id < st.nextTargetId)
    && (forall id :: id in st.schedules ==> 1 <= id < st.nextScheduleId)
    && (forall id :: id in st.schedules ==> st.schedules[id].targetId in st.targets)
    && RunsReferenceSchedules(st.runs, st.schedules)
  }

  lemma EmptyIsValid()
    ensures Valid(Empty)
  {
  }

  /** Number of runs recorded for schedule `id` (what the window strategy counts). */
  function CountFor(runs: seq<Run>, id: int): (n: nat)
    ensures n <= |runs|
    ensures n == 0 <==> forall i :: 0 <= i < |runs| ==> runs[i].scheduleId != Some(id)
  {
    if runs == [] then 0
    else CountFor(runs[..|runs| - 1], id) + (if runs[|runs| - 1].scheduleId == Some(id) then 1 else 0)
  }

  /** Appending one run adds one to its own schedule's count and nothing to any other's. */
  lemma CountForAppendOne(runs: seq<Run>, run: Run, id: int)
    ensures CountFor(runs + [run], id) == CountFor(runs, id) + (if run.scheduleId == Some(id) then 1 else 0)
  {
    assert (runs + [run])[..|runs|] == runs;
  }
}

=== FILE: wrappers.dfy ===
/** Optional values and error-carrying results, used wherever the source returns
    `None` or raises. */
module Wrappers {

  datatype Option<+T> = None | Some(value: T) {
    /** The wrapped value, or `default` when there is none. */
    function GetOr(default: T): T {
      match this
      case Some(v) => v
      case None => default
    }
  }

  datatype Result<+T, +E> = Ok(value: T) | Err(error: E)
}
